=== FILE: README.md ===
# jointech-tcp-parser, modelled in Dafny

This project models the core of a Go decoder for the TCP traffic of
JointTech JT701/JT701D electronic container locks. It covers three parts:

- **The frame decoder.** `Decode` walks a byte buffer that may hold several
  frames back to back:
  - a heartbeat frame (`0x28`, and `"JT)"` at offsets 13..15) sets the
    health-check mark and the terminal id;
  - a command frame (`0x28` with none of the three trailer bytes matching)
    is skipped up to its closing `0x29`;
  - anything else is read as a 69-byte positional/alarm data frame, which
    overwrites the header fields of the result and appends one PAL record.

  The helpers around it are modelled too: `cleanLng` and
  `cleanDirectionIndicator`, the cell-id/LAC split of the packed cell
  field, and the two lock-event byte types with `Add`, `Has` and `String`.
- **The packet splitter.** `PacketReception` cuts a text dump at every
  `"24"`, trims each piece and removes its spaces, rejects pieces that are
  not hex, and puts `"24"` back in front of each piece it keeps.
- **The display helpers** of `tohuman.go`:
  - label lookups: `protocolVersion`, `deviceType`, `dataType`;
  - bit and position decoding: `decodeDirectionIndicator`, `parseLatLng`,
    `direction`;
  - base conversions: `hexToDecimal`, `hexToByte`, `hexToBinary`;
  - `reverseString`, `bitToInt`, the sixteen-flag `parseDeviceStatus`
    table, and `GSMSignalQuality`.

Modules, one per component:

- `Common`: bytes, `Result`, errors, `Pow`.
- `Text`: the strconv / strings / encoding-hex behaviour that the core relies on.
- `Reader`: the big-endian reads.
- `Events`: the lock-event bytes.
- `Parser`: `jointechparser.go`.
- `Reception`: `datareception.go`.
- `ToHuman`: `tohuman.go`.

Go's integer types appear as subset types (`byte`, `uint16`, `uint32`) or
bit-vectors (`bv8` for the event bytes, `bv32` for the packed cell field).
Go's truncating `/` and `%` are written out as `Quot` and `Rem`.
Errors are a `Result` datatype whose `Err` carries the failure kind. The
message texts are not modelled.

Where the code and the repository's tests disagree, the model follows the
code:

- `protocolVersion("98")` is `"JT701"`, not the `"JT701D"` a test expects
  (`ToHuman.ProtocolVersionOf98`).
- `hexToDecimal("0x24")` is an error, because base-16 `ParseInt` takes no
  prefix (`ToHuman.HexToDecimalRefusesPrefix`).
- The `Decode` test compares against fields that `Decoded` does not have,
  so it states nothing about the code.

## Model

| member | source | states |
|---|---|---|
| Text.SplitOn | datareception.go:12 | strings.Split yields at least one piece |
| Text.SplitJoin | datareception.go:12 | joining the pieces with the separator gives the text back: nothing is lost or added |
| Text.SplitCount | datareception.go:12 | there is one more piece than there are non-overlapping occurrences of the separator |
| Text.SplitAfterPiece | datareception.go:12 | a piece without the separator's first character is cut off whole at the next separator |
| Text.RemoveChar | datareception.go:18 | ReplaceAll of " " by "" leaves no space and never makes the text longer |
| Text.RemoveCharConcat | datareception.go:18 | removing a character works piece by piece over concatenation |
| Text.TrimLeftSpaceShape | datareception.go:17 | trimming on the left drops exactly a run of leading white space: what is kept is a suffix that does not start with a space |
| Text.TrimRightSpaceShape | datareception.go:17 | trimming on the right drops exactly a run of trailing white space: what is kept is a prefix that does not end with a space |
| Text.TrimSpaceShape | datareception.go:17 | strings.TrimSpace keeps a contiguous middle of the text that neither starts nor ends with a space, and everything cut off on either side is white space |
| Text.HexDecode | datareception.go:21 | hex.DecodeString succeeds exactly on an even number of hex digits |
| Text.HexRoundTrip | datareception.go:21 | decoding the hex text of any bytes gives the same bytes back |
| Text.HexText | jointechparser.go:269-275 | the hex text of a byte run has two characters per byte |
| Text.HexTextAt | jointechparser.go:269-275 | characters 2k and 2k+1 of the hex text are the digits of the high and low nibble of byte k |
| Text.FormatNatRoundTrip | tohuman.go:255 | the numeral FormatInt writes for n is all digits of the base and reads back as n |
| Text.FormatNatNoLeadingZero | tohuman.go:255 | the numeral is the shortest one: it starts with '0' only for 0 |
| Text.ParseFormatRoundTrip | tohuman.go:250 | ParseInt and ParseUint read a formatted numeral, and its negation, back in every bit width that holds the value |
| Text.ParseUint | jointechparser.go:298 | strconv.ParseUint succeeds exactly on non-empty text of digits of the base whose value is below 2^bits, and then gives that value; scanning left to right, a failure is a range error exactly when the leading run of digits already reaches 2^bits, whatever follows, and a syntax error otherwise |
| Text.ParseInt | tohuman.go:212 | strconv.ParseInt takes one optional sign and then digits through ParseUint; it succeeds exactly when the value fits the two's-complement range of the width (one further on the negative side), and gives the signed value; the one exception is Go's clamp at width 1, where a negative numeral whose leading digits reach 2 reads as -1; a failure is a range error exactly when the unsigned scan overflows 2^bits or an all-digit value falls outside the signed range, and a syntax error otherwise |
| Text.ParseIntWidthOne | tohuman.go:212 | at width 1, "-1" gives -1, "1" is a range error, and "-2" overflows the unsigned read yet gives -1 without an error |
| Reader.Uint16At | jointechparser.go:262 | a 16-bit read is the two bytes big-endian: first byte * 256 + second |
| Reader.Uint32At | jointechparser.go:364 | a 32-bit read is the four bytes big-endian |
| Events.Add | jointechparser.go:168-170 | after Add, every key is present exactly when it was present before or is part of the added key |
| Events.AddThenHas | jointechparser.go:168-182 | a non-zero key is present after it is added; adding twice equals adding once; adding a single flag that is already present changes nothing |
| Events.FlagsDisjoint | jointechparser.go:37-59 | the eight 1 << iota flags of either event type share no bit |
| Events.HasSharedFlag | jointechparser.go:172-182 | a key is present exactly when the event byte and the key share one of the eight flags |
| Events.StringAsWritten | jointechparser.go:102-133 | String as written: 0 gives "", 1 gives the lowest flag's name, and every value above 1 gives "<unknown key: n>" with n's decimal numeral, non-empty and without a leading zero, as %d writes it |
| Events.HighString | jointechparser.go:102-133 | a high event renders as "LongTimeUnlocking" exactly for 1 and as "" exactly for 0 |
| Events.LowString | jointechparser.go:135-166 | a low event renders as "BaseStationPositioning" exactly for 1 and as "" exactly for 0 |
| Events.StringAsWrittenMisrendersFlags | jointechparser.go:103-104 | as written, WrongPassword (2) and the set {BaseStationPositioning, EnterFence} (3) render as unknown keys, while the flag rendering names them |
| Events.FlagNamesMembership | jointechparser.go:125-132 | the multi-key rendering lists a flag's name exactly when that flag is set |
| Events.RenderSingleFlag | jointechparser.go:106-123 | a single flag renders as exactly its own name |
| Events.RenderNamesSetFlags | jointechparser.go:106-165 | for both event types, the rendering names exactly the set flags, and each single flag gets its switch-case name |
| Parser.PALData.AddHighEvent | jointechparser.go:168-174 | after AddHighEvent(key), a flag is set exactly when it was set before or is part of the key, so earlier events stay set; HasHighEvent(key) holds exactly when key is non-zero; no other field changes |
| Parser.PALData.AddLowEvent | jointechparser.go:176-182 | after AddLowEvent(key), a flag is set exactly when it was set before or is part of the key, so earlier events stay set; HasLowEvent(key) holds exactly when key is non-zero; no other field changes |
| Parser.PALData.HasHighEvent | jointechparser.go:172-174 | HasHighEvent(key) holds exactly when some flag of the key is set among the high events |
| Parser.PALData.HasLowEvent | jointechparser.go:180-182 | HasLowEvent(key) holds exactly when some flag of the key is set among the low events |
| Parser.PALData.CellId | jointechparser.go:90-94 | the cell id is the upper 16 bits of the packed field: below 2^16 and equal to the field divided by 2^16 |
| Parser.PALData.LAC | jointechparser.go:97-100 | the LAC is the lower 16 bits of the packed field: below 2^16 and equal to the field modulo 2^16 |
| Parser.CellIdLacSplit | jointechparser.go:90-99 | CellId and LAC each fit in 16 bits, and the cell id shifted back above the LAC rebuilds the packed field |
| Parser.CleanDirectionIndicator | jointechparser.go:517-525 | succeeds exactly on non-empty text, and then gives its last character |
| Parser.CleanLng | jointechparser.go:527-535 | succeeds exactly on non-empty text, and then gives all but its last character |
| Parser.CleanLngIndicatorSplit | jointechparser.go:517-535 | the cleaned longitude followed by the indicator is the original text |
| Parser.ParseLongitude | jointechparser.go:311-338 | the longitude steps succeed exactly when the text has at least two characters, all but the last are decimal digits, and their value is below 1800000000; the value is that number and the indicator is the last character |
| Parser.ParseFrame | jointechparser.go:226-511 | a data frame that parses lies wholly (69 bytes) inside the buffer |
| Parser.ParseFrameOkIff | jointechparser.go:226-361 | a data frame parses exactly when all 69 bytes are present, the time, latitude and first nine longitude nibbles are decimal digits, and the angle byte is at most 180 |
| Parser.ParseFrameHeader | jointechparser.go:226-470 | protocol header and version are the decimal texts of bytes 0 and 6, the terminal id is the hex text of bytes 1..5, device and data type are the two nibbles of byte 7, bind-vehicle id and IMEI come from bytes 32..35 and 48..62 |
| Parser.ParseFramePosition | jointechparser.go:273-338 | time, latitude and longitude are the decimal values of their nibbles, utime is the time / 1000, and the indicator is the last nibble |
| Parser.ParseFrameFields | jointechparser.go:259-511 | every fixed-width field of the record is the byte, or the big-endian number, at its offset in the frame |
| Parser.ParseFrameValid | jointechparser.go:282-361 | every parsed record has an even angle in 0..360, latitude at most 99999999, longitude at most 999999999, and utime = utimeMs / 1000 |
| Parser.FrameAtReadsBack | jointechparser.go:226-470 | the header texts of a frame read back as the bytes they came from: the Itoa numbers through ParseInt, the terminal and bind-vehicle ids through hex decoding, the type byte from its two nibbles; the IMEI is 15 characters |
| Parser.ItoaReadsBack | jointechparser.go:230 | the strconv.Itoa text of a byte reads back as that byte |
| Parser.Merge | jointechparser.go:230-257 | a data frame overwrites protocol header, terminal id, version, device and data type, bind-vehicle id and IMEI with its own, keeps the health-check mark, and appends exactly its record |
| Parser.BcdBound | jointechparser.go:291-301 | the nibbles of n bytes read as decimal digits stay below 100^n |
| Parser.HexDigitsIffBcd | jointechparser.go:298 | the hex text is a decimal numeral exactly when every nibble is at most 9 |
| Parser.HexAsDecimal | jointechparser.go:282-301 | the hex text read as decimal denotes the number whose digits are the nibbles |
| Parser.DecimalField | jointechparser.go:282-301 | ParseUint of the hex text of 1..4 bytes succeeds exactly on decimal nibbles, with a value of at most 8 digits |
| Parser.LongitudeField | jointechparser.go:311-338 | the longitude steps succeed exactly when the first nine nibbles are decimal; the value is those digits, and the indicator is the tenth nibble |
| Parser.RangeChecksNeverReject | jointechparser.go:305-333 | the latitude and longitude range checks can never fail on what the digit reads produce |
| Parser.NextClose | jointechparser.go:212-214 | the command skip stops at the first 0x29 at or after the cursor, or at the buffer end |
| Parser.Advance | jointechparser.go:201-218 | the cursor moves 16 past a heartbeat, one past the closing 0x29 of a command, and 69 past a data frame |
| Parser.FrameKinds | jointechparser.go:202-211 | heartbeat and command exclude each other, both need 16 bytes starting with 0x28, a heartbeat is exactly one carrying "JT)" at +13..+15, and a 0x28 frame with a partial trailer match is neither |
| Parser.Walk | jointechparser.go:200-513 | a successful walk only appends records, at most one per 69 bytes left; it keeps the health-check mark once set (WalkMark states exactly when it is set); and every record satisfies the record invariant |
| Parser.Decode | jointechparser.go:185-197 | fewer than 16 bytes is an error; a first byte other than 0x24 or 0x28 is an error; a result holds at most one record per 69 bytes, all valid |
| Parser.WalkSkipStep | jointechparser.go:202-217 | a heartbeat or command step reads no data frame and changes only the mark and the terminal id |
| Parser.WalkDataStep | jointechparser.go:225-512 | a data step fails when its frame fails, and otherwise continues with the frame merged in |
| Parser.WalkOkIff | jointechparser.go:200-513 | the walk succeeds exactly when every data frame on the cursor's path parses |
| Parser.WalkRecords | jointechparser.go:512 | a successful walk appends exactly the records of the data frames on its path, in frame order |
| Parser.DecodeOkIff | jointechparser.go:185-515 | past the size and header checks, Decode succeeds exactly when every data frame the cursor reaches parses, with one record per such frame |
| Parser.WalkLastHeader | jointechparser.go:200-513 | after a successful walk the header fields are those of the last data frame on the path, and the starting ones when the path holds none |
| Parser.WalkLastId | jointechparser.go:200-513 | after a successful walk the terminal id is the one written by the last heartbeat or data frame on the path, commands writing none |
| Parser.DecodeLastWriterWins | jointechparser.go:200-513 | a decoded buffer carries the header of its last data frame (empty fields when there is none) and the terminal id of its last heartbeat or data frame ("" when there is neither) |
| Parser.WalkMark | jointechparser.go:200-208 | after a successful walk the health-check mark is set exactly when it was set at the start or a heartbeat lies on the cursor's path |
| Parser.DecodeMark | jointechparser.go:185-208 | a decoded buffer carries the health-check mark exactly when a heartbeat lies on the cursor's path |
| Parser.HeartbeatOnly | jointechparser.go:202-208 | a lone 16-byte heartbeat decodes to the health-check mark, its ten id bytes as terminal id, and no records |
| Parser.HeartbeatExample | jointechparser.go:202-208 | the heartbeat 28 37 30 30 30 33 31 33 33 33 34 2C 40 4A 54 29 decodes with terminal id "7000313334" |
| Reception.Clean | datareception.go:17-18 | a cleaned piece contains no space |
| Reception.Piece | datareception.go:17-26 | a piece contributes at most one element, and a piece that passes contributes a well-formed one |
| Reception.Kept | datareception.go:15-28 | the kept elements number at most the pieces, and are all well formed when every piece passes |
| Reception.Reception | datareception.go:10-31 | the result is an error exactly when some piece is neither empty after cleaning nor hex text; otherwise at most one element per piece, each "24" followed by space-free hex text |
| Reception.PacketReception | datareception.go:10-31 | the loop, which stops at the first bad piece, returns the same as the whole-input definition |
| Reception.KeptAppend | datareception.go:15-28 | pieces appended on the right contribute on the right, in order |
| Reception.SkipEmptyFirst | datareception.go:20 | a piece that cleans to nothing neither contributes nor fails |
| Reception.LeadingSeparator | datareception.go:12-20 | a leading "24" adds nothing: the text after it gives the same result |
| Reception.ReceptionExample | datareception_test.go:9-17 | "24 7500 24 7501" gives ["247500", "247501"] |
| ToHuman.ProtocolVersion | tohuman.go:94-99 | the label is "JT701D" exactly for the text "19", and "JT701" otherwise |
| ToHuman.ProtocolVersionOf98 | tohuman_test.go:60-66 | the text "98" gives "JT701" |
| ToHuman.DeviceTypeOf | tohuman.go:108-117 | the regular-device label exactly when the low nibble is 1, and the unknown label otherwise |
| ToHuman.DeviceType | tohuman.go:101-118 | the regular-device label exactly when the parsed value's low nibble is 1 |
| ToHuman.DataTypeOf | tohuman.go:127-141 | label k of the four exactly when the second nibble is k + 1, and the unknown label exactly when it is outside 1..4 |
| ToHuman.DataType | tohuman.go:120-142 | the unknown label exactly when the parsed value's second nibble is outside 1..4 |
| ToHuman.TypeLabelsReadOneNibble | tohuman.go:108-128 | deviceType reads only the low nibble and dataType only the one above it |
| ToHuman.TypeLabelsOfOne | tohuman_test.go:69-84 | "1" is the regular device type and an unknown data type |
| ToHuman.DecodeDirectionIndicator | tohuman.go:157-186 | positioning, latitude, longitude and fixed value follow bits 0, 1, 2 and 3 of the byte |
| ToHuman.LowBits | tohuman.go:159-162 | the masks 0x01, 0x02, 0x04 and 0x08 test the arithmetic bits 0 to 3 |
| ToHuman.DirectionReadsLowNibble | tohuman.go:157-186 | bytes with equal low nibbles decode alike |
| ToHuman.AllLowBitsOf15 | tohuman_test.go:97-111 | the byte 15 decodes to fixed value.1, east longitude, north latitude, GPS positioning |
| ToHuman.ParseLatLng | tohuman.go:188-192 | for a non-negative packed value: its degrees plus the rest read as minutes over 60 |
| ToHuman.LatLngSplit | tohuman.go:189-191 | degrees, whole minutes below 100 and four decimals add back up to the packed value |
| ToHuman.QuotRemOdd | tohuman.go:189-191 | Go's quotient and remainder change sign with the dividend |
| ToHuman.LatLngOdd | tohuman.go:188-192 | a negated packed value gives the negated degrees |
| ToHuman.LatLngExample | tohuman_test.go:114-121 | 22348310 is within 10^-6 of 22.580517 degrees |
| ToHuman.DirectionDegrees | tohuman.go:211-220 | the angle is twice the text read as a signed hex number (any letter case, leading zeros or sign ParseInt accepts), so it is even and within twice the signed 32-bit range |
| ToHuman.DirectionOfHexNumeral | tohuman.go:211-220 | the hex numeral of n gives 2n degrees |
| ToHuman.DirectionExample | tohuman_test.go:134-141 | "98" gives 304 degrees |
| ToHuman.HexToDecimal | tohuman.go:222-233 | empty text is its own error; otherwise the result is the 64-bit signed hex read, within the signed 64-bit range |
| ToHuman.HexToDecimalRoundTrip | tohuman.go:222-233 | the hex numeral of any n below 2^63, and its negation, read back as n and -n |
| ToHuman.HexToDecimalRefusesPrefix | tohuman_test.go:144-151 | "0x24" is an error and "24" is 36 |
| ToHuman.HexPrefixLength | tohuman.go:238 | the %02x width: the count of hex digits among the first two characters |
| ToHuman.HexToByte | tohuman.go:236-244 | succeeds exactly when the text starts with a hex digit; two leading digits give d1 * 16 + d2, a lone one gives its value |
| ToHuman.HexToByteRoundTrip | tohuman.go:236-244 | the two-digit hex text of any byte reads back as that byte, and a single digit as its value |
| ToHuman.HexToByteOfF | tohuman_test.go:154-161 | "F" gives 15 |
| ToHuman.HexToBinary | tohuman.go:247-258 | succeeds exactly when the text, after one "0x" is dropped, is a 64-bit signed hex number; the result is the canonical binary numeral of that value: no leading zero unless the value is 0, and a negative value is "-" followed by the numeral of its magnitude |
| ToHuman.HexToBinaryRoundTrip | tohuman.go:247-258 | the hex numeral of n, with or without "0x", gives the shortest binary numeral of n |
| ToHuman.HexNumeralHasNoPrefix | tohuman.go:248 | a hex numeral never starts with "0x", and one "0x" in front is exactly what is dropped |
| ToHuman.HexToBinaryExample | tohuman_test.go:164-171 | "F" gives "1111" |
| ToHuman.Reverse | tohuman.go:314-320 | the reversal has the text's length, and character k is character n-1-k of the text |
| ToHuman.ReverseAt | tohuman.go:314-320 | character k of the reversal is character n-1-k of the text |
| ToHuman.ReverseInvolution | tohuman.go:314-320 | reversing twice gives the text back |
| ToHuman.ReverseString | tohuman.go:314-320 | the two-ended swap loop produces the reversal |
| ToHuman.BitToInt | tohuman.go:322-334 | for decimal digits b and k in the key, the index is (b - 1) * 8 + k, and 0 when that would be negative |
| ToHuman.BitToIntKeys | tohuman.go:322-334 | "Byte<b>.BIT<k>" reads without panicking and gives (b - 1) * 8 + k |
| ToHuman.BitToIntInjective | tohuman.go:322-334 | distinct keys give distinct indexes |
| ToHuman.DescriptionsDistinct | tohuman.go:282-299 | the sixteen descriptions are pairwise different |
| ToHuman.TableKeyIndex | tohuman.go:282-302 | table entry t is the key of bit t |
| ToHuman.StatusMap | tohuman.go:301-309 | the map has exactly the descriptions of the entries visited as keys |
| ToHuman.StatusMapAt | tohuman.go:301-309 | each description maps to the flag of its own entry, whatever the iteration order |
| ToHuman.ParseDeviceStatusAsWritten | tohuman.go:276-312 | as written, on any non-empty text the map has exactly the sixteen descriptions as keys |
| ToHuman.EntryFlagReads | tohuman.go:302-308 | the index, computed on the reversed text and clamped at 0, reads character t from the left, or the last character when t is past the end |
| ToHuman.DeviceStatusAsWrittenReads | tohuman.go:279-308 | as written, flag t is character t of the text from the left, or the last character when the text is shorter |
| ToHuman.DeviceStatusAsWrittenMisreadsOne | tohuman.go:276-312 | on "1" all sixteen flags come out true as written, and only bit 0 in the corrected reading |
| ToHuman.ParseDeviceStatus | tohuman.go:276-312 | the corrected map has exactly the sixteen descriptions as keys |
| ToHuman.DeviceStatusReads | tohuman.go:279-308 | corrected: flag t is the t-th character from the right, false when the text is shorter |
| ToHuman.BinaryDigitIsBit | tohuman.go:255 | the digit k places from the right of the binary numeral of n is bit k of n, and bits above the numeral are 0 |
| ToHuman.DeviceStatusReadsBits | tohuman.go:260-266 | on the binary numeral of n, each corrected flag is n's bit of the same index |
| ToHuman.GSMSignalQuality | tohuman.go:336-341 | the result is never 0, and any non-zero value comes back unchanged |
| ToHuman.GSMSignalQualityIdempotent | tohuman.go:336-341 | applying the mapping twice changes nothing more, and 0 becomes 99 |

## Left out

- The external b2n reader is not part of this model. Its reads are taken
  to fail only by leaving the buffer, and its string read to give
  lower-case hex text, as encoding/hex does. The repository's decoder test
  (`jointechparser_test.go:21-22`) writes its expected hex in upper case
  (`DirectionIndicator: "F"`, `Mileage: "0000002D"`), so if b2n writes
  upper case, the direction indicator and the hex-text fields differ from
  the model in letter case only: "F" where the model has "f". `Reader.Uint16At` and
  `Reader.Uint32At` give the value of a read that stays inside the buffer.
  `ParseFrame` folds each run of consecutive reads into one length check,
  so a frame cut short fails the same way whichever read would have failed.
- Parser.PALData.AddHighEvent and AddLowEvent are modelled on a value:
  the event bytes are plain fields and the methods return a new record.
  In Go, `HighEvents` and `LowEvents` are pointers
  (`jointechparser.go:85-86`) that the methods write through
  (`jointechparser.go:168-182`). So on a zero `PALData{}` they panic with
  a nil pointer, and copies of a record (a `range` copy of `decoded.Data`,
  say) share the event bytes, so an `Add` on one copy is seen by all. The
  model has neither effect. This is sound for `Decode`, which gives each
  record fresh pointers of its own (`jointechparser.go:395-404`).
- Text.ParseUint and Text.ParseInt take the bit width as given. Go reads
  a width of 0 as the platform int size; no caller in the core passes 0.
- Error message texts are not modelled. An error is only its kind
  (`FrameTooShort`, `NotJtPacket`, `IncompleteField`, `FieldOutOfRange`,
  `MalformedHex`, ...).
- The IMEI slice at `jointechparser.go:469` does not go through a checked
  read. Past the buffer end Go panics, or reads the slice's spare capacity.
  The model has that frame fail with `IncompleteField`.
- The unsafe pointer casts that turn byte slices into strings are modelled
  as a copy, one character per byte.
- `Decode` writes the speed as a float64 (`byte * 1.85`). It is kept as an
  exact real. No floating-point rounding is modelled, including the
  conversion of the latitude and longitude to float64 before their range
  checks.
- ToHuman.ParseLatLng leaves out the final rounding to six decimals
  (`math.Pow` / `math.Round`) and returns the exact real. Because of that,
  `LatLngExample` states a 10^-6 bound instead of equality.
- `toHumanReadable`, `parseDate`, `parseSpeed` and `deviceStatus` are left
  out:
  - they are presentation over time-zone formatting, JSON encoding,
    floating-point rounding and map-order printing;
  - they call into `time` and `encoding/json`;
  - `Printf` / `Println` are output only.
- ToHuman.DeviceType and ToHuman.DataType require a text that `ParseInt`
  accepts. For other text the source ignores the error and goes on with
  whatever `ParseInt` returned: 0 for bad syntax, the clamped bound for an
  out-of-range number. ToHuman.DeviceTypeOf and ToHuman.DataTypeOf cover
  every value, those included.
- ToHuman.DirectionDegrees has the same requirement, because `direction`
  ignores the parse error in the same way.
- ToHuman.HexToByte requires that the text does not start with white space.
  `Sscanf` skips leading spaces before the width count, and that is not
  modelled.
- ToHuman.ParseDeviceStatusAsWritten requires a non-empty text, because Go
  panics on the empty one when it indexes the reversed text at 0.
- `decodeDirectionIndicator` takes a Go `byte`. It is modelled on `bv8`, and
  `LowBits` relates its masks to arithmetic bits.
- The order in which Go iterates over the status table is not modelled.
  The descriptions are pairwise distinct (`DescriptionsDistinct`), so the
  resulting map does not depend on that order.
- The two-frame dump in the splitter's test is not mirrored; a short
  two-piece example (`ReceptionExample`) stands in for it. The decoder's test does not
  compile against the `Decoded` type, so it is not mirrored.

## Findings

| source | as written | input that shows it | evidently intended | confidence | as-written member | corrected member |
|---|---|---|---|---|---|---|
| jointechparser.go:103-104 | `String` returns "<unknown key: k>" for every k above the lowest flag (1), so single flags other than the lowest never reach their case, and combinations never reach the multi-key loop | the high event 2 (WrongPassword) renders "<unknown key: 2>"; the low event 3 renders "<unknown key: 3>" | single flags render as their names; a combination joins the names of its set flags with "\|" | not executed | Events.StringAsWrittenMisrendersFlags | Events.RenderNamesSetFlags |
| tohuman.go:279-308 | the binary text is reversed, then indexed from its end, so the two reversals cancel: flag t reads character t from the left (the most significant end), and a text shorter than the table reads its last character for every missing bit | the binary text of 1, "1", makes all sixteen flags true | flag t is bit t of the value, false for bits the numeral does not reach | not executed | ToHuman.DeviceStatusAsWrittenMisreadsOne | ToHuman.DeviceStatusReadsBits |

=== FILE: common.dfy ===
/** Shared vocabulary of the model: octets, the failure-compatible result
    type every fallible operation returns, and natural powers. */
module Common {

  /** An octet, as Go's `byte` / `uint8`. */
  type byte = x: int | 0 <= x < 256

  /** Go's `uint16`. */
  type uint16 = x: int | 0 <= x < 0x1_0000

  /** Go's `uint32`. */
  type uint32 = x: int | 0 <= x < 0x1_0000_0000

  /** The failures the modelled code can report. The source only ever returns
      formatted error text; the model keeps the kind and drops the text. */
  datatype Error =
    | FrameTooShort      // buffer below the 16-byte heartbeat size
    | NotJtPacket        // first byte is neither 0x24 nor 0x28
    | IncompleteField    // a fixed-offset read leaves the buffer
    | NotANumber         // strconv rejected a digit string
    | NumberOutOfRange   // strconv range error
    | FieldOutOfRange    // latitude, longitude or angle check
    | EmptyString        // cleanLng / cleanDirectionIndicator / hexToDecimal on ""
    | MalformedHex       // encoding/hex rejected a segment

  /** Ok carries the value, Err the failure; usable with `:-`. */
  datatype Result<+T> = Ok(value: T) | Err(error: Error) {

    predicate IsFailure() {
      Err?
    }

    function PropagateFailure<U>(): Result<U>
      requires Err?
    {
      Err(error)
    }

    function Extract(): T
      requires Ok?
    {
      value
    }
  }

  /** The outcome of a check that carries no value; usable with `:-` in a
      function returning a Result. */
  datatype Check = Pass | Fail(error: Error) {

    predicate IsFailure() {
      Fail?
    }

    function PropagateFailure<U>(): Result<U>
      requires Fail?
    {
      Err(error)
    }
  }

  function Need(condition: bool, error: Error): (c: Check)
    ensures c.Pass? <==> condition
  {
    if condition then Pass else Fail(error)
  }

  lemma MulMonotone(a: nat, c: nat, b: nat)
    requires a <= c
    ensures a * b <= c * b
  {
  }

  lemma MulAssoc(a: nat, b: nat, c: nat)
    ensures a * (b * c) == (a * b) * c
  {
  }

  lemma DoubleIsEven(a: int)
    ensures (a * 2) % 2 == 0
  {
  }

  /** b raised to the power e. */
  function Pow(b: nat, e: nat): nat
  {
    if e == 0 then 1 else b * Pow(b, e - 1)
  }

  lemma {:induction false} PowPositive(b: nat, e: nat)
    requires b >= 1
    ensures Pow(b, e) >= 1
  {
    if e > 0 {
      PowPositive(b, e - 1);
    }
  }

  lemma {:induction false} PowMonotone(b: nat, e: nat, f: nat)
    requires b >= 1 && e <= f
    ensures Pow(b, e) <= Pow(b, f)
    decreases f
  {
    if e < f {
      PowMonotone(b, e, f - 1);
      MulMonotone(1, b, Pow(b, f - 1));
    }
  }

  lemma {:induction false} PowAdd(b: nat, e: nat, f: nat)
    ensures Pow(b, e + f) == Pow(b, e) * Pow(b, f)
    decreases e
  {
    if e > 0 {
      PowAdd(b, e - 1, f);
      MulAssoc(b, Pow(b, e - 1), Pow(b, f));
    }
  }

  /** 2^64, the bound of a 64-bit unsigned read. */
  lemma PowTwo64()
    ensures Pow(2, 64) == 0x1_0000_0000_0000_0000
  {
    assert Pow(2, 8) == 256;
    PowAdd(2, 8, 8);
    PowAdd(2, 16, 16);
    PowAdd(2, 32, 32);
  }

  /** Concatenation regroups; stated once so that callers need not reach
      for sequence extensionality. */
  lemma AppendAssoc<T>(a: seq<T>, b: seq<T>, c: seq<T>)
    ensures a + b + c == a + (b + c)
  {
  }

  /** A non-empty sequence is its prefix followed by its last element. */
  lemma InitLast<T>(s: seq<T>)
    requires |s| > 0
    ensures s[..|s| - 1] + [s[|s| - 1]] == s
  {
  }
}

=== FILE: events.dfy ===
/** The two lock-event bytes of a PAL record. Each byte is a set of eight
    single-bit flags; the flags are listed here from the least significant
    bit (value 1) to the most significant (value 128). */
module Events {
  import opened Text

  const HighNames: seq<string> :=
    ["LongTimeUnlocking", "WrongPassword", "Swipe", "LowBattery",
     "CoverOpen", "CoverClosed", "MotorStuck", "Reserved"]

  const LowNames: seq<string> :=
    ["BaseStationPositioning", "EnterFence", "ExitFence", "RopeCut",
     "Vibration", "AckRequired", "RopeInserted", "MotorLocked"]

  /** The flag of bit j, that is 1 << j. */
  function Flag(j: nat): bv8
    requires j < 8
  {
    (1 as bv8) << j
  }

  /** Membership: some bit of key is set in the event byte. */
  predicate Has(events: bv8, key: bv8)
  {
    events & key != 0
  }

  /** Membership, flag by flag: the byte and the key share a flag. */
  lemma HasSharedFlag(events: bv8, key: bv8)
    ensures Has(events, key) <==> exists j :: 0 <= j < 8 && Has(events, Flag(j)) && Has(key, Flag(j))
  {
    if Has(events, key) {
      var m := events & key;
      if m & 1 != 0 { assert Flag(0) == 1; }
      else if m & 2 != 0 { assert Flag(1) == 2; }
      else if m & 4 != 0 { assert Flag(2) == 4; }
      else if m & 8 != 0 { assert Flag(3) == 8; }
      else if m & 16 != 0 { assert Flag(4) == 16; }
      else if m & 32 != 0 { assert Flag(5) == 32; }
      else if m & 64 != 0 { assert Flag(6) == 64; }
      else { assert Flag(7) == 128; }
    }
  }

  /** Adding a key sets its bits and keeps every bit already set. */
  function Add(events: bv8, key: bv8): (r: bv8)
    ensures forall j: bv8 {:trigger Has(r, j)} :: Has(r, j) <==> Has(events, j) || Has(key, j)
  {
    events | key
  }

  /** A non-empty key is present after it is added, and adding it again
      changes nothing. */
  lemma AddThenHas(events: bv8, key: bv8)
    ensures key != 0 ==> Has(Add(events, key), key)
    ensures Add(Add(events, key), key) == Add(events, key)
    ensures Has(events, key) && key & (key - 1) == 0 ==> Add(events, key) == events
  {
  }

  // ---------------------------------------------------------------------
  // Rendering, as written
  // ---------------------------------------------------------------------

  /** String() of either event type as the code is written: the guard
      compares with the least flag (1), so every byte above 1 renders as
      an unknown key, 1 renders its name, and 0 reaches the multi-key loop,
      whose first test (128 < 1) already fails, so it joins no names. */
  function StringAsWritten(k: bv8, names: seq<string>): (r: string)
    requires |names| == 8
    ensures k == 0 ==> r == ""
    ensures k == 1 ==> r == names[0]
    ensures k > 1 ==> StartsWith(r, "<unknown key: ") && r[|r| - 1] == '>'
    ensures k > 1 ==>
      var digits := r[|"<unknown key: "|..|r| - 1];
      && |digits| > 0 && digits[0] != '0'
      && AllDigitsIn(digits, 10) && ValueOf(digits, 10) == k as int
  {
    if k > 1 then
      var digits := FormatNat(k as int, 10);
      FormatNatRoundTrip(k as int, 10);
      FormatNatNoLeadingZero(k as int, 10);
      var r := "<unknown key: " + digits + ">";
      assert r[|"<unknown key: "|..|r| - 1] == digits;
      r
    else if k == 1 then names[0]
    else Join([], "|")
  }

  /** HighByteLockEvent.String. */
  function HighString(k: bv8): (r: string)
    ensures k == 1 <==> r == "LongTimeUnlocking"
    ensures k == 0 <==> r == ""
  {
    StringAsWritten(k, HighNames)
  }

  /** LowByteLockEvent.String. */
  function LowString(k: bv8): (r: string)
    ensures k == 1 <==> r == "BaseStationPositioning"
    ensures k == 0 <==> r == ""
  {
    StringAsWritten(k, LowNames)
  }

  /** The single high flag WrongPassword (2) renders as an unknown key, and
      the low combination BaseStationPositioning|EnterFence (3) does too,
      where the event-set rendering promises the flag names. */
  lemma StringAsWrittenMisrendersFlags()
    ensures HighString(2) == "<unknown key: 2>"
    ensures HighRender(2) == "WrongPassword"
    ensures LowString(3) == "<unknown key: 3>"
    ensures LowRender(3) == "BaseStationPositioning|EnterFence"
  {
    HighTwoMisrendered();
    LowThreeMisrendered();
  }

  lemma HighTwoMisrendered()
    ensures HighString(2) == "<unknown key: 2>"
    ensures HighRender(2) == "WrongPassword"
  {
    assert FormatNat(2, 10) == "2";
    FlagNamesAt(2, HighNames);
  }

  lemma LowThreeMisrendered()
    ensures LowString(3) == "<unknown key: 3>"
    ensures LowRender(3) == "BaseStationPositioning|EnterFence"
  {
    LowThreeAsWritten();
    FlagNamesAt(3, LowNames);
  }

  lemma LowThreeAsWritten()
    ensures LowString(3) == "<unknown key: 3>"
  {
    assert FormatNat(3, 10) == "3";
  }

  // ---------------------------------------------------------------------
  // Rendering, as the event-set design intends it
  // ---------------------------------------------------------------------

  /** Names of the flags set in k, taken from bit j upwards. */
  function FlagNames(k: bv8, names: seq<string>, j: nat): seq<string>
    requires |names| == 8 && j <= 8
    decreases 8 - j
  {
    if j == 8 then []
    else (if Has(k, Flag(j)) then [names[j]] else []) + FlagNames(k, names, j + 1)
  }

  /** The names of the set flags, lowest bit first, joined by "|". */
  function Render(k: bv8, names: seq<string>): string
    requires |names| == 8
  {
    Join(FlagNames(k, names, 0), "|")
  }

  function HighRender(k: bv8): string
  {
    Render(k, HighNames)
  }

  function LowRender(k: bv8): string
  {
    Render(k, LowNames)
  }

  predicate Distinct(names: seq<string>)
  {
    forall a, b :: 0 <= a < b < |names| ==> names[a] != names[b]
  }

  /** A name from bit j upwards is listed exactly when its flag is set. */
  lemma {:induction false} FlagNamesMembership(k: bv8, names: seq<string>, j: nat, m: nat)
    requires |names| == 8 && j <= 8 && m < 8 && Distinct(names)
    ensures names[m] in FlagNames(k, names, j) <==> j <= m && Has(k, Flag(m))
    decreases 8 - j
  {
    if j < 8 {
      FlagNamesMembership(k, names, j + 1, m);
    }
  }

  /** The names listed for the small bytes used above, evaluated. */
  lemma FlagNamesAt(k: bv8, names: seq<string>)
    requires |names| == 8
    ensures k == 2 ==> FlagNames(k, names, 0) == [names[1]]
    ensures k == 3 ==> FlagNames(k, names, 0) == [names[0], names[1]]
  {
  }

  lemma FlagsDisjoint(m: nat, j: nat)
    requires m < 8 && j < 8
    ensures Has(Flag(m), Flag(j)) <==> j == m
  {
  }

  /** From bit j upwards, a single flag lists only its own name. */
  lemma {:induction false} FlagNamesSingle(names: seq<string>, m: nat, j: nat)
    requires |names| == 8 && m < 8 && j <= 8
    ensures FlagNames(Flag(m), names, j) == if j <= m then [names[m]] else []
    decreases 8 - j
  {
    if j < 8 {
      FlagsDisjoint(m, j);
      FlagNamesSingle(names, m, j + 1);
    }
  }

  /** A single flag renders as its own name. */
  lemma RenderSingleFlag(names: seq<string>, m: nat)
    requires |names| == 8 && m < 8
    ensures Render(Flag(m), names) == names[m]
  {
    FlagNamesSingle(names, m, 0);
  }

  /** The rendering of either event byte names exactly the set flags. */
  lemma RenderNamesSetFlags(k: bv8, m: nat)
    requires m < 8
    ensures HighNames[m] in FlagNames(k, HighNames, 0) <==> Has(k, Flag(m))
    ensures LowNames[m] in FlagNames(k, LowNames, 0) <==> Has(k, Flag(m))
    ensures HighRender(Flag(m)) == HighNames[m]
    ensures LowRender(Flag(m)) == LowNames[m]
  {
    assert Distinct(HighNames);
    assert Distinct(LowNames);
    FlagNamesMembership(k, HighNames, 0, m);
    FlagNamesMembership(k, LowNames, 0, m);
    RenderSingleFlag(HighNames, m);
    RenderSingleFlag(LowNames, m);
  }
}

=== FILE: parser.dfy ===
/** The JT701/JT701D frame decoder: a cursor walk over one buffer that may
    hold several frames back to back. Heartbeat frames (0x28 … "JT)") mark
    the result and set the terminal id, command frames (0x28 … 0x29) are
    skipped, and everything else is read as a 69-byte positional/alarm
    data frame that adds one PAL record. */
module Parser {
  import opened Common
  import opened Text
  import opened Reader
  import Events

  /** One positional / alarm / lock sample. */
  datatype PALData = PALData(
    utimeMs: nat,               // time field, read as a decimal number
    utime: nat,                 // utimeMs / 1000
    lat: int,                   // raw latitude magnitude
    lng: int,                   // raw longitude magnitude
    angle: int,                 // direction in degrees
    distance: uint32,           // mileage
    visSat: byte,               // visible GPS satellites
    speed: real,                // speed byte * 1.85
    directionIndicator: string, // last hex digit of the longitude field
    date: string,               // DDMMYY as hex text
    time: string,               // hhmmss as hex text
    batteryLevel: byte,
    cellIdPositionCode: bv32,   // cell id in the high 16 bits, LAC in the low 16
    mcc: uint16,
    gsmSignalQuality: byte,
    fenceAlarmId: byte,
    mncHighByte: byte,
    mncLowByte: byte,
    expandedDeviceStatus: byte,
    expandedDeviceStatus2: byte,
    serialNo: byte,
    length: uint16,
    highEvents: bv8,
    lowEvents: bv8)
  {
    /** Mobile station id: (code & 0xFFFF0000) >> 16, the upper half. */
    function CellId(): (c: bv32)
      ensures c < 0x1_0000
      ensures c == cellIdPositionCode / 0x1_0000
    {
      (cellIdPositionCode & 0xFFFF_0000) >> 16
    }

    /** Location area code: code & 0x0000FFFF, the lower half. */
    function LAC(): (l: bv32)
      ensures l < 0x1_0000
      ensures l == cellIdPositionCode % 0x1_0000
    {
      cellIdPositionCode & 0x0000_FFFF
    }

    function AddHighEvent(key: bv8): (p: PALData)
      ensures p.HasHighEvent(key) <==> key != 0
      ensures forall j: bv8 {:trigger Events.Has(p.highEvents, j)} ::
        Events.Has(p.highEvents, j) <==> Events.Has(highEvents, j) || Events.Has(key, j)
      ensures p == this.(highEvents := p.highEvents)
    {
      this.(highEvents := Events.Add(highEvents, key))
    }

    /** Some flag of the key is set among the high events. */
    predicate HasHighEvent(key: bv8): (b: bool)
      ensures b <==> exists j :: 0 <= j < 8 && Events.Has(highEvents, Events.Flag(j)) && Events.Has(key, Events.Flag(j))
    {
      Events.HasSharedFlag(highEvents, key);
      Events.Has(highEvents, key)
    }

    function AddLowEvent(key: bv8): (p: PALData)
      ensures p.HasLowEvent(key) <==> key != 0
      ensures forall j: bv8 {:trigger Events.Has(p.lowEvents, j)} ::
        Events.Has(p.lowEvents, j) <==> Events.Has(lowEvents, j) || Events.Has(key, j)
      ensures p == this.(lowEvents := p.lowEvents)
    {
      this.(lowEvents := Events.Add(lowEvents, key))
    }

    /** Some flag of the key is set among the low events. */
    predicate HasLowEvent(key: bv8): (b: bool)
      ensures b <==> exists j :: 0 <= j < 8 && Events.Has(lowEvents, Events.Flag(j)) && Events.Has(key, Events.Flag(j))
    {
      Events.HasSharedFlag(lowEvents, key);
      Events.Has(lowEvents, key)
    }
  }

  /** The decode result. The scalar header fields hold what the last frame
      of the buffer wrote; the records are appended in frame order. */
  datatype Decoded = Decoded(
    protocolHeader: string,
    protocolVersion: string,
    imei: string,
    terminalId: string,
    deviceType: byte,
    dataType: byte,
    bindVehicleId: string,
    containsHealthcheck: bool,
    data: seq<PALData>)

  /** The zero value the decoder starts from. */
  const Empty := Decoded("", "", "", "", 0, 0, "", false, [])

  /** What one data frame contributes: the header fields it overwrites
      and the record it appends. */
  datatype Frame = Frame(
    protocolHeader: string,
    terminalId: string,
    protocolVersion: string,
    deviceType: byte,
    dataType: byte,
    bindVehicleId: string,
    imei: string,
    record: PALData)

  const MinPacketSize := 16
  const HeartbeatSize := 16
  const FrameSize := 69

  // ---------------------------------------------------------------------
  // Field helpers
  // ---------------------------------------------------------------------

  /** (b & 0xF0) >> 4, which for a byte is its quotient by 16. */
  function HighNibble(b: byte): int
  {
    b / 16
  }

  /** b & 0x0F, which for a byte is its remainder by 16. */
  function LowNibble(b: byte): int
  {
    b % 16
  }

  /** cleanDirectionIndicator: the last character; fails on "". */
  function CleanDirectionIndicator(s: string): (r: Result<string>)
    ensures r.Ok? <==> s != ""
    ensures r.Ok? ==> |r.value| == 1 && r.value[0] == s[|s| - 1]
  {
    if |s| == 0 then Err(EmptyString) else Ok([s[|s| - 1]])
  }

  /** cleanLng: everything but the last character; fails on "". */
  function CleanLng(s: string): (r: Result<string>)
    ensures r.Ok? <==> s != ""
    ensures r.Ok? ==> |r.value| == |s| - 1 && r.value == s[..|s| - 1]
  {
    if |s| == 0 then Err(EmptyString) else Ok(s[..|s| - 1])
  }

  /** The longitude steps of a data frame, in the source's order: drop the
      last character, read the rest as a decimal number, check its range,
      then keep the last character as the direction indicator. */
  function ParseLongitude(lngText: string): (r: Result<(nat, string)>)
    ensures r.Ok? <==>
      && |lngText| >= 2
      && AllDigitsIn(lngText[..|lngText| - 1], 10)
      && ValueOf(lngText[..|lngText| - 1], 10) < 1800000000
    ensures r.Ok? ==>
      && r.value.0 == ValueOf(lngText[..|lngText| - 1], 10)
      && r.value.1 == [lngText[|lngText| - 1]]
  {
    PowTwo64();
    var cleanedLng :- CleanLng(lngText);
    var lng :- ParseUint(cleanedLng, 10, 64);
    :- Need(-1800000000 < lng < 1800000000, FieldOutOfRange);
    // The text is known non-empty here, so this step cannot fail; its error
    // result is still passed on, as the source does.
    match CleanDirectionIndicator(lngText)
    case Err(e) => Err(e)
    case Ok(indicator) => Ok((lng, indicator))
  }

  // ---------------------------------------------------------------------
  // One data frame
  // ---------------------------------------------------------------------

  /** Reads the 69-byte data frame that starts at offset i, in frame order.
      A b2n read fails only by leaving the buffer, so each run of
      consecutive reads is one length check here: offsets 0..15, then the
      time digits; 16..19, then the latitude digits and range; 20..24, then
      the longitude steps; 25..26, then the angle range; 27..68. */
  function ParseFrame(bs: seq<byte>, i: nat): (r: Result<Frame>)
    ensures r.Ok? ==> i + FrameSize <= |bs|
  {
    if |bs| < i + 16 then Err(IncompleteField)
    else
      var utimeMs :- ParseUint(HexText(bs[i + 13..i + 16]), 10, 64);
      :- Need(i + 20 <= |bs|, IncompleteField);
      var lat :- ParseUint(HexText(bs[i + 16..i + 20]), 10, 64);
      :- Need(-850000000 < lat < 850000000, FieldOutOfRange);
      :- Need(i + 25 <= |bs|, IncompleteField);
      var lngAndIndicator :- ParseLongitude(HexText(bs[i + 20..i + 25]));
      :- Need(i + 27 <= |bs|, IncompleteField);
      :- Need(bs[i + 26] as int * 2 <= 360, FieldOutOfRange);
      :- Need(i + FrameSize <= |bs|, IncompleteField);
      Ok(FrameAt(bs, i, utimeMs, lat, lngAndIndicator.0, lngAndIndicator.1))
  }

  /** The fields of a frame that lies wholly in the buffer, given the
      values of its decimal fields. */
  function FrameAt(bs: seq<byte>, i: nat, utimeMs: nat, lat: nat, lng: nat,
                   indicator: string): Frame
    requires i + FrameSize <= |bs|
  {
    var record := PALData(
      utimeMs, utimeMs / 1000, lat, lng, bs[i + 26] as int * 2, Uint32At(bs, i + 27),
      bs[i + 31], bs[i + 25] as real * 1.85, indicator,
      HexText(bs[i + 10..i + 13]), HexText(bs[i + 13..i + 16]), bs[i + 38],
      Uint32At(bs, i + 39) as bv32, Uint16At(bs, i + 65), bs[i + 43],
      bs[i + 44], bs[i + 46], bs[i + 67], bs[i + 45], bs[i + 47], bs[i + 68],
      Uint16At(bs, i + 8), bs[i + 36] as bv8, bs[i + 37] as bv8);
    Frame(FormatInt(bs[i], 10), HexText(bs[i + 1..i + 6]),
          FormatInt(bs[i + 6], 10), HighNibble(bs[i + 7]), LowNibble(bs[i + 7]),
          HexText(bs[i + 32..i + 36]), BytesToString(bs[i + 48..i + 63]), record)
  }

  /** The header texts of a frame read back as the bytes they were made
      from: the Itoa numbers through ParseInt, the hex fields through
      hex decoding, and the type byte from its two nibbles. */
  lemma FrameAtReadsBack(bs: seq<byte>, i: nat, utimeMs: nat, lat: nat, lng: nat, indicator: string)
    requires i + FrameSize <= |bs|
    ensures var f := FrameAt(bs, i, utimeMs, lat, lng, indicator);
      && ParseInt(f.protocolHeader, 10, 64) == Ok(bs[i])
      && ParseInt(f.protocolVersion, 10, 64) == Ok(bs[i + 6])
      && HexDecode(f.terminalId) == Ok(bs[i + 1..i + 6])
      && HexDecode(f.bindVehicleId) == Ok(bs[i + 32..i + 36])
      && f.deviceType < 16 && f.dataType < 16 && f.deviceType * 16 + f.dataType == bs[i + 7]
      && |f.imei| == 15
  {
    ItoaReadsBack(bs[i]);
    ItoaReadsBack(bs[i + 6]);
    HexRoundTrip(bs[i + 1..i + 6]);
    HexRoundTrip(bs[i + 32..i + 36]);
  }

  /** strconv.Itoa of a byte reads back through ParseInt. */
  lemma ItoaReadsBack(b: byte)
    ensures ParseInt(FormatInt(b, 10), 10, 64) == Ok(b)
  {
    assert Pow(2, 8) == 256;
    PowMonotone(2, 8, 63);
    ParseFormatRoundTrip(b, 10, 64);
  }

  /** A frame's header fields overwrite the decoded ones; its record is
      appended. The health-check flag is left as it was. */
  function Merge(d: Decoded, f: Frame): (m: Decoded)
    ensures HeaderOf(m) == FrameHeaderOf(f) && m.terminalId == f.terminalId
    ensures m.containsHealthcheck == d.containsHealthcheck
    ensures m.data == d.data + [f.record]
  {
    d.(protocolHeader := f.protocolHeader, terminalId := f.terminalId,
       protocolVersion := f.protocolVersion, deviceType := f.deviceType,
       dataType := f.dataType, bindVehicleId := f.bindVehicleId,
       imei := f.imei, data := d.data + [f.record])
  }

  /** The header fields a data frame overwrites, the terminal id aside
      (a heartbeat writes that one too). */
  function HeaderOf(d: Decoded): (string, string, byte, byte, string, string)
  {
    (d.protocolHeader, d.protocolVersion, d.deviceType, d.dataType, d.bindVehicleId, d.imei)
  }

  function FrameHeaderOf(f: Frame): (string, string, byte, byte, string, string)
  {
    (f.protocolHeader, f.protocolVersion, f.deviceType, f.dataType, f.bindVehicleId, f.imei)
  }

  // ---------------------------------------------------------------------
  // The cursor walk
  // ---------------------------------------------------------------------

  /** 0x28 with "JT)" (4A 54 29) at +13..+15. */
  predicate IsHeartbeat(bs: seq<byte>, i: nat)
  {
    i + 15 < |bs| && bs[i] == 0x28
    && bs[i + 13] == 0x4A && bs[i + 14] == 0x54 && bs[i + 15] == 0x29
  }

  /** 0x28 whose three trailer bytes all differ from 4A 54 29. A partial
      trailer match is neither a heartbeat nor a command. */
  predicate IsCommand(bs: seq<byte>, i: nat)
  {
    i + 15 < |bs| && bs[i] == 0x28
    && bs[i + 13] != 0x4A && bs[i + 14] != 0x54 && bs[i + 15] != 0x29
  }

  /** How the walk classifies the byte at the cursor: heartbeat and command
      exclude each other, only 0x28 starts either, a heartbeat carries the
      text "JT)" at +13..+15, and a 0x28 frame whose trailer matches only
      in part is read as a data frame. */
  lemma FrameKinds(bs: seq<byte>, i: nat)
    ensures !(IsHeartbeat(bs, i) && IsCommand(bs, i))
    ensures (IsHeartbeat(bs, i) || IsCommand(bs, i)) ==> i + 16 <= |bs| && bs[i] == 0x28
    ensures IsHeartbeat(bs, i) <==>
      i + 16 <= |bs| && bs[i] == 0x28 && BytesToString(bs[i + 13..i + 16]) == "JT)"
    ensures i + 16 <= |bs| && bs[i] == 0x28 && !IsHeartbeat(bs, i) && !IsCommand(bs, i) ==>
      (bs[i + 13] == 0x4A || bs[i + 14] == 0x54 || bs[i + 15] == 0x29)
  {
    if i + 16 <= |bs| {
      var t := BytesToString(bs[i + 13..i + 16]);
      assert t[0] == bs[i + 13] as char && t[1] == bs[i + 14] as char && t[2] == bs[i + 15] as char;
      assert "JT)"[0] == 0x4A as char && "JT)"[1] == 0x54 as char && "JT)"[2] == 0x29 as char;
    }
  }

  /** The first 0x29 at or after k, or |bs| when there is none. */
  function NextClose(bs: seq<byte>, k: nat): (p: nat)
    requires k <= |bs|
    ensures k <= p <= |bs|
    ensures p < |bs| ==> bs[p] == 0x29
    ensures forall m :: k <= m < p ==> bs[m] != 0x29
    decreases |bs| - k
  {
    if k == |bs| || bs[k] == 0x29 then k else NextClose(bs, k + 1)
  }

  /** Where the cursor goes from i: past a heartbeat, one past the next
      0x29 for a command (|bs| + 1 when none follows), or past a data frame. */
  function Advance(bs: seq<byte>, i: nat): (j: nat)
    requires i < |bs|
    ensures j >= i + 2
    ensures IsHeartbeat(bs, i) ==> j == i + HeartbeatSize
    ensures IsCommand(bs, i) ==> j <= |bs| + 1
    ensures IsCommand(bs, i) ==>
      (j <= |bs| ==> bs[j - 1] == 0x29) && forall m :: i <= m < j - 1 ==> bs[m] != 0x29
    ensures !IsHeartbeat(bs, i) && !IsCommand(bs, i) ==> j == i + FrameSize
  {
    if IsHeartbeat(bs, i) then i + HeartbeatSize
    else if IsCommand(bs, i) then NextClose(bs, i) + 1
    else i + FrameSize
  }

  /** The cursor measure: bytes left in front of the cursor. */
  function Remaining(bs: seq<byte>, i: nat): nat
  {
    if i < |bs| then |bs| - i else 0
  }

  predicate ValidRecord(p: PALData)
  {
    && 0 <= p.angle <= 360 && p.angle % 2 == 0
    && 0 <= p.lat <= 99_999_999
    && 0 <= p.lng <= 999_999_999
    && p.utime == p.utimeMs / 1000
  }

  predicate AllValid(ps: seq<PALData>)
  {
    forall p <- ps :: ValidRecord(p)
  }

  /** The walk from cursor i. Every step moves the cursor forward; the
      first data frame that fails fails the whole walk. */
  function Walk(bs: seq<byte>, i: nat, acc: Decoded): (r: Result<Decoded>)
    ensures r.Ok? ==> acc.data <= r.value.data
    ensures r.Ok? ==> FrameSize * (|r.value.data| - |acc.data|) <= Remaining(bs, i)
    ensures r.Ok? && acc.containsHealthcheck ==> r.value.containsHealthcheck
    ensures r.Ok? && AllValid(acc.data) ==> AllValid(r.value.data)
    decreases Remaining(bs, i)
  {
    if i >= |bs| then Ok(acc)
    else if IsHeartbeat(bs, i) then
      var hb := acc.(containsHealthcheck := true,
                     terminalId := BytesToString(bs[i + 1..i + 11]));
      Walk(bs, Advance(bs, i), hb)
    else if IsCommand(bs, i) then
      Walk(bs, Advance(bs, i), acc)
    else
      var f :- ParseFrame(bs, i);
      ParseFrameValid(bs, i);
      Walk(bs, Advance(bs, i), Merge(acc, f))
  }

  /** Decode: at least 16 bytes whose first byte is 0x24 or 0x28, then the
      walk from offset 0. On failure nothing of the walk is returned. */
  function Decode(bs: seq<byte>): (r: Result<Decoded>)
    ensures |bs| < MinPacketSize ==> r == Err(FrameTooShort)
    ensures |bs| >= MinPacketSize && bs[0] != 0x24 && bs[0] != 0x28 ==> r == Err(NotJtPacket)
    ensures r.Ok? ==> FrameSize * |r.value.data| <= |bs|
    ensures r.Ok? ==> AllValid(r.value.data)
  {
    if |bs| < MinPacketSize then Err(FrameTooShort)
    else if bs[0] != 0x24 && bs[0] != 0x28 then Err(NotJtPacket)
    else Walk(bs, 0, Empty)
  }

  // ---------------------------------------------------------------------
  // Digit fields: hex text read back as a decimal number
  // ---------------------------------------------------------------------

  /** Every nibble of every byte is a decimal digit. */
  predicate IsBcd(bs: seq<byte>)
  {
    forall k :: 0 <= k < |bs| ==> bs[k] / 16 <= 9 && bs[k] % 16 <= 9
  }

  /** The decimal number whose digits are the nibbles, high nibble first. */
  function BcdValue(bs: seq<byte>): nat
    requires IsBcd(bs)
  {
    if |bs| == 0 then 0
    else
      var b := bs[|bs| - 1];
      BcdValue(bs[..|bs| - 1]) * 100 + (b / 16) * 10 + b % 16
  }

  /** n BCD bytes hold at most 2n decimal digits. */
  lemma {:induction false} BcdBound(bs: seq<byte>)
    requires IsBcd(bs)
    ensures BcdValue(bs) < Pow(100, |bs|)
    decreases |bs|
  {
    if |bs| > 0 {
      var p := bs[..|bs| - 1];
      assert forall k :: 0 <= k < |p| ==> p[k] == bs[k];
      BcdBound(p);
      MulMonotone(BcdValue(p) + 1, Pow(100, |p|), 100);
    }
  }

  lemma BcdFourBytes(bs: seq<byte>)
    requires IsBcd(bs) && |bs| == 4
    ensures BcdValue(bs) <= 99_999_999
  {
    BcdBound(bs);
    assert Pow(100, 4) == 100_000_000;
  }

  /** Every character of the hex text is a decimal digit exactly when
      every nibble is at most 9. */
  lemma HexDigitsIffBcd(bs: seq<byte>)
    ensures AllDigitsIn(HexText(bs), 10) <==> IsBcd(bs)
  {
    var t := HexText(bs);
    forall k | 0 <= k < |bs|
      ensures DigitValue(t[2 * k]) == bs[k] / 16 && DigitValue(t[2 * k + 1]) == bs[k] % 16
    {
      HexTextAt(bs, k);
      DigitCharValue(bs[k] / 16);
      DigitCharValue(bs[k] % 16);
    }
    if AllDigitsIn(t, 10) {
      forall k | 0 <= k < |bs| ensures bs[k] / 16 <= 9 && bs[k] % 16 <= 9 {
        assert DigitValue(t[2 * k]) < 10 && DigitValue(t[2 * k + 1]) < 10;
      }
    }
    if IsBcd(bs) {
      assert AllDigitsIn(t, 10) by {
        forall k | 0 <= k < |t| ensures DigitValue(t[k]) < 10 {
          var j := k / 2;
          HexTextAt(bs, j);
          DigitCharValue(bs[j] / 16);
          DigitCharValue(bs[j] % 16);
          assert k == 2 * j || k == 2 * j + 1;
        }
      }
    }
  }

  /** The hex text of bytes reads as a decimal numeral exactly when every
      nibble is at most 9, and then it denotes the nibbles' number. */
  lemma {:induction false} HexAsDecimal(bs: seq<byte>)
    ensures AllDigitsIn(HexText(bs), 10) <==> IsBcd(bs)
    ensures IsBcd(bs) ==> ValueOf(HexText(bs), 10) == BcdValue(bs)
  {
    var t := HexText(bs);
    HexDigitsIffBcd(bs);
    if IsBcd(bs) {
      if |bs| > 0 {
        var p := bs[..|bs| - 1];
        var b := bs[|bs| - 1];
        assert IsBcd(p) by {
          forall k | 0 <= k < |p| ensures p[k] / 16 <= 9 && p[k] % 16 <= 9 {
            assert p[k] == bs[k];
          }
        }
        HexAsDecimal(p);
        var hp := HexText(p);
        var hi, lo := DigitChar(b / 16), DigitChar(b % 16);
        DigitCharValue(b / 16);
        DigitCharValue(b % 16);
        ValueOfAppend(hp, hi, 10);
        ValueOfAppend(hp + [hi], lo, 10);
        assert t == hp + [hi] + [lo];
      }
    }
  }

  /** A decimal read of the hex text of 1 to 4 bytes (time, latitude)
      succeeds exactly when every nibble is a decimal digit. */
  lemma DecimalField(bs: seq<byte>)
    requires 1 <= |bs| <= 4
    ensures ParseUint(HexText(bs), 10, 64).Ok? <==> IsBcd(bs)
    ensures IsBcd(bs) ==> ParseUint(HexText(bs), 10, 64).value == BcdValue(bs) <= 99_999_999
  {
    HexAsDecimal(bs);
    if IsBcd(bs) {
      ValueOfBound(HexText(bs), 10);
      PowMonotone(10, |HexText(bs)|, 8);
      assert Pow(10, 8) == 100_000_000;
      PowTwo64();
    }
  }

  /** The longitude steps on five bytes succeed exactly when the first
      nine nibbles are decimal digits; the number is those nine digits and
      the indicator is the hex digit of the last nibble. */
  lemma LongitudeField(bs: seq<byte>)
    requires |bs| == 5
    ensures ParseLongitude(HexText(bs)).Ok? <==> IsBcd(bs[..4]) && bs[4] / 16 <= 9
    ensures ParseLongitude(HexText(bs)).Ok? ==>
      && ParseLongitude(HexText(bs)).value.0 == BcdValue(bs[..4]) * 10 + bs[4] / 16
      && ParseLongitude(HexText(bs)).value.0 <= 999_999_999
      && ParseLongitude(HexText(bs)).value.1 == [DigitChar(bs[4] % 16)]
  {
    var p := bs[..4];
    var b := bs[4];
    assert bs[..|bs| - 1] == p;
    var t := HexText(bs);
    var hp := HexText(p);
    var hi, lo := DigitChar(b / 16), DigitChar(b % 16);
    assert t == hp + [hi, lo];
    assert t[..|t| - 1] == hp + [hi];
    HexAsDecimal(p);
    DigitCharValue(b / 16);
    if IsBcd(p) && b / 16 <= 9 {
      ValueOfAppend(hp, hi, 10);
      ValueOfBound(hp + [hi], 10);
      assert Pow(10, 9) == 1_000_000_000;
      PowTwo64();
    }
    if AllDigitsIn(hp + [hi], 10) {
      assert AllDigitsIn(hp, 10) by {
        forall k | 0 <= k < |hp| ensures DigitValue(hp[k]) < 10 {
          assert hp[k] == (hp + [hi])[k];
        }
      }
      assert DigitValue((hp + [hi])[|hp|]) < 10;
    }
  }

  /** The latitude and longitude range checks cannot reject: nine decimal
      digits stay far below both bounds. */
  lemma RangeChecksNeverReject(lat4: seq<byte>, lng5: seq<byte>)
    requires |lat4| == 4 && |lng5| == 5
    ensures ParseUint(HexText(lat4), 10, 64).Ok? ==>
      -850000000 < ParseUint(HexText(lat4), 10, 64).value < 850000000
    ensures forall cleaned :: CleanLng(HexText(lng5)) == Ok(cleaned) && ParseUint(cleaned, 10, 64).Ok? ==>
      -1800000000 < ParseUint(cleaned, 10, 64).value < 1800000000
  {
    DecimalField(lat4);
    var t := HexText(lng5);
    var cleaned := t[..|t| - 1];
    if AllDigitsIn(cleaned, 10) {
      ValueOfBound(cleaned, 10);
      assert Pow(10, 9) == 1_000_000_000;
    }
  }

  // ---------------------------------------------------------------------
  // Properties of one data frame
  // ---------------------------------------------------------------------

  /** When a data frame at i parses: the whole frame is in the buffer, the
      time, latitude and first nine longitude nibbles are decimal digits,
      and the angle byte is at most 180. */
  predicate FrameParses(bs: seq<byte>, i: nat)
  {
    && i + FrameSize <= |bs|
    && IsBcd(bs[i + 13..i + 16])
    && IsBcd(bs[i + 16..i + 20])
    && IsBcd(bs[i + 20..i + 24]) && bs[i + 24] / 16 <= 9
    && bs[i + 26] <= 180
  }

  lemma ParseFrameOkIff(bs: seq<byte>, i: nat)
    ensures ParseFrame(bs, i).Ok? <==> FrameParses(bs, i)
  {
    if i + FrameSize <= |bs| {
      DecimalField(bs[i + 13..i + 16]);
      DecimalField(bs[i + 16..i + 20]);
      var lng5 := bs[i + 20..i + 25];
      LongitudeField(lng5);
      assert lng5[..4] == bs[i + 20..i + 24];
    }
  }

  /** The header fields of a parsed frame, in terms of the frame's bytes. */
  lemma ParseFrameHeader(bs: seq<byte>, i: nat)
    requires ParseFrame(bs, i).Ok?
    ensures var f := ParseFrame(bs, i).value;
      && f.protocolHeader == FormatInt(bs[i], 10)
      && f.terminalId == HexText(bs[i + 1..i + 6])
      && f.protocolVersion == FormatInt(bs[i + 6], 10)
      && f.deviceType == bs[i + 7] / 16 && f.dataType == bs[i + 7] % 16
      && f.deviceType * 16 + f.dataType == bs[i + 7]
      && f.bindVehicleId == HexText(bs[i + 32..i + 36])
      && f.imei == BytesToString(bs[i + 48..i + 63])
  {
  }

  /** The position fields of a parsed record: the frame's nibbles read as
      decimal digits, and the direction indicator as the last nibble. */
  lemma ParseFramePosition(bs: seq<byte>, i: nat)
    requires ParseFrame(bs, i).Ok?
    ensures FrameParses(bs, i)
    ensures var p := ParseFrame(bs, i).value.record;
      && p.utimeMs == BcdValue(bs[i + 13..i + 16])
      && p.utime == p.utimeMs / 1000
      && p.lat == BcdValue(bs[i + 16..i + 20])
      && p.lng == BcdValue(bs[i + 20..i + 24]) * 10 + bs[i + 24] / 16
      && p.directionIndicator == [DigitChar(bs[i + 24] % 16)]
  {
    ParseFrameOkIff(bs, i);
    DecimalField(bs[i + 13..i + 16]);
    DecimalField(bs[i + 16..i + 20]);
    var lng5 := bs[i + 20..i + 25];
    LongitudeField(lng5);
    assert lng5[..4] == bs[i + 20..i + 24];
  }

  /** The fixed-width fields of a parsed record: each is the byte, or the
      big-endian number of the bytes, at its offset in the frame. */
  lemma ParseFrameFields(bs: seq<byte>, i: nat)
    requires ParseFrame(bs, i).Ok?
    ensures i + FrameSize <= |bs|
    ensures var p := ParseFrame(bs, i).value.record;
      && p.length == Uint16At(bs, i + 8)
      && p.date == HexText(bs[i + 10..i + 13]) && p.time == HexText(bs[i + 13..i + 16])
      && p.speed == bs[i + 25] as real * 1.85
      && p.angle == bs[i + 26] as int * 2
      && p.distance == Uint32At(bs, i + 27) && p.visSat == bs[i + 31]
      && p.highEvents == bs[i + 36] as bv8 && p.lowEvents == bs[i + 37] as bv8
      && p.batteryLevel == bs[i + 38]
      && p.cellIdPositionCode == Uint32At(bs, i + 39) as bv32
      && p.gsmSignalQuality == bs[i + 43] && p.fenceAlarmId == bs[i + 44]
      && p.expandedDeviceStatus == bs[i + 45] && p.mncHighByte == bs[i + 46]
      && p.expandedDeviceStatus2 == bs[i + 47]
      && p.mcc == Uint16At(bs, i + 65) && p.mncLowByte == bs[i + 67]
      && p.serialNo == bs[i + 68]
  {
  }

  /** Every record a frame yields satisfies the record invariant: an even
      angle in 0..360, at most eight latitude digits, at most nine
      longitude digits, and utime = utimeMs / 1000. */
  lemma ParseFrameValid(bs: seq<byte>, i: nat)
    ensures ParseFrame(bs, i).Ok? ==> ValidRecord(ParseFrame(bs, i).value.record)
  {
    if ParseFrame(bs, i).Ok? {
      ParseFramePosition(bs, i);
      ParseFrameFields(bs, i);
      var p := ParseFrame(bs, i).value.record;
      var a := bs[i + 26] as int;
      assert p.angle == a * 2 && a <= 180;
      DoubleIsEven(a);
      BcdFourBytes(bs[i + 16..i + 20]);
      assert 0 <= p.lat <= 99_999_999;
      BcdFourBytes(bs[i + 20..i + 24]);
      assert 0 <= p.lng <= 999_999_999;
    }
  }

  /** The packed cell field: both parts fit in 16 bits, and the cell id
      shifted back above the LAC gives the field back. */
  lemma CellIdLacSplit(p: PALData)
    ensures p.CellId() < 0x1_0000 && p.LAC() < 0x1_0000
    ensures (p.CellId() << 16) | p.LAC() == p.cellIdPositionCode
  {
  }

  /** For a non-empty text, the cleaned longitude followed by the direction
      indicator is the text itself, and the indicator is its last
      character. */
  lemma CleanLngIndicatorSplit(s: string)
    requires s != ""
    ensures CleanLng(s).value + CleanDirectionIndicator(s).value == s
    ensures CleanDirectionIndicator(s).value == [s[|s| - 1]]
  {
  }

  // ---------------------------------------------------------------------
  // Properties of the walk
  // ---------------------------------------------------------------------

  /** The cursors at which the walk reads a data frame. */
  function DataCursors(bs: seq<byte>, i: nat): seq<nat>
    decreases Remaining(bs, i)
  {
    if i >= |bs| then []
    else if IsHeartbeat(bs, i) || IsCommand(bs, i) then DataCursors(bs, Advance(bs, i))
    else [i] + DataCursors(bs, Advance(bs, i))
  }

  /** Every cursor in cs starts a data frame that parses. */
  predicate AllParse(bs: seq<byte>, cs: seq<nat>)
  {
    forall c <- cs :: ParseFrame(bs, c).Ok?
  }

  lemma AllParseCons(bs: seq<byte>, c: nat, rest: seq<nat>)
    ensures AllParse(bs, [c] + rest) <==> ParseFrame(bs, c).Ok? && AllParse(bs, rest)
  {
    assert forall d :: d in [c] + rest <==> d == c || d in rest;
  }

  /** What a heartbeat or command step leaves of the decoded fields. */
  function SkipStep(bs: seq<byte>, i: nat, acc: Decoded): Decoded
    requires i < |bs|
  {
    if IsHeartbeat(bs, i) then
      acc.(containsHealthcheck := true, terminalId := BytesToString(bs[i + 1..i + 11]))
    else acc
  }

  /** A heartbeat or command step of the walk reads no data frame. */
  lemma WalkSkipStep(bs: seq<byte>, i: nat, acc: Decoded)
    requires i < |bs| && (IsHeartbeat(bs, i) || IsCommand(bs, i))
    ensures Walk(bs, i, acc) == Walk(bs, Advance(bs, i), SkipStep(bs, i, acc))
    ensures DataCursors(bs, i) == DataCursors(bs, Advance(bs, i))
  {
  }

  /** Any other step reads a data frame at i. */
  lemma DataCursorsStep(bs: seq<byte>, i: nat)
    requires i < |bs| && !IsHeartbeat(bs, i) && !IsCommand(bs, i)
    ensures DataCursors(bs, i) == [i] + DataCursors(bs, Advance(bs, i))
  {
  }

  /** A data step fails with its frame, and otherwise continues with the
      frame merged in. */
  lemma WalkDataStep(bs: seq<byte>, i: nat, acc: Decoded)
    requires i < |bs| && !IsHeartbeat(bs, i) && !IsCommand(bs, i)
    ensures ParseFrame(bs, i).Err? ==> Walk(bs, i, acc).Err?
    ensures ParseFrame(bs, i).Ok? ==>
      Walk(bs, i, acc) == Walk(bs, Advance(bs, i), Merge(acc, ParseFrame(bs, i).value))
  {
  }

  /** The walk succeeds exactly when every data frame on its path parses. */
  lemma {:induction false} WalkOkIff(bs: seq<byte>, i: nat, acc: Decoded)
    ensures Walk(bs, i, acc).Ok? <==> AllParse(bs, DataCursors(bs, i))
    decreases Remaining(bs, i)
  {
    if i < |bs| {
      var j := Advance(bs, i);
      if IsHeartbeat(bs, i) || IsCommand(bs, i) {
        WalkSkipStep(bs, i, acc);
        WalkOkIff(bs, j, SkipStep(bs, i, acc));
      } else {
        DataCursorsStep(bs, i);
        AllParseCons(bs, i, DataCursors(bs, j));
        WalkDataStep(bs, i, acc);
        if ParseFrame(bs, i).Ok? {
          WalkOkIff(bs, j, Merge(acc, ParseFrame(bs, i).value));
        }
      }
    }
  }

  /** The records of the data frames at the given cursors, in order. */
  function FrameRecords(bs: seq<byte>, cs: seq<nat>): (rs: seq<PALData>)
    requires AllParse(bs, cs)
    ensures |rs| == |cs|
  {
    if |cs| == 0 then []
    else [ParseFrame(bs, cs[0]).value.record] + FrameRecords(bs, cs[1..])
  }

  lemma FrameRecordsCons(bs: seq<byte>, c: nat, rest: seq<nat>)
    requires ParseFrame(bs, c).Ok? && AllParse(bs, rest)
    ensures AllParse(bs, [c] + rest)
    ensures FrameRecords(bs, [c] + rest) == [ParseFrame(bs, c).value.record] + FrameRecords(bs, rest)
  {
    AllParseCons(bs, c, rest);
    assert ([c] + rest)[1..] == rest;
  }

  /** A successful walk appends exactly the records of the data frames on
      its path, one per frame, in the order of the frames. */
  lemma {:induction false} WalkRecords(bs: seq<byte>, i: nat, acc: Decoded)
    requires Walk(bs, i, acc).Ok?
    ensures AllParse(bs, DataCursors(bs, i))
    ensures Walk(bs, i, acc).value.data == acc.data + FrameRecords(bs, DataCursors(bs, i))
    decreases Remaining(bs, i)
  {
    if i < |bs| {
      var j := Advance(bs, i);
      if IsHeartbeat(bs, i) || IsCommand(bs, i) {
        WalkSkipStep(bs, i, acc);
        WalkRecords(bs, j, SkipStep(bs, i, acc));
      } else {
        DataCursorsStep(bs, i);
        WalkDataStep(bs, i, acc);
        var f := ParseFrame(bs, i).value;
        var rest := DataCursors(bs, j);
        WalkRecords(bs, j, Merge(acc, f));
        FrameRecordsCons(bs, i, rest);
        AppendAssoc(acc.data, [f.record], FrameRecords(bs, rest));
      }
    }
  }

  /** The cursors at which the walk writes the terminal id: heartbeats and
      data frames, not commands. */
  function IdCursors(bs: seq<byte>, i: nat): seq<nat>
    decreases Remaining(bs, i)
  {
    if i >= |bs| then []
    else if IsCommand(bs, i) then IdCursors(bs, Advance(bs, i))
    else [i] + IdCursors(bs, Advance(bs, i))
  }

  /** The terminal id written at cursor c: the raw id bytes of a heartbeat,
      or the hex id of a data frame ("" for a frame that does not parse,
      which a successful walk never reaches). */
  function IdAt(bs: seq<byte>, c: nat): string
  {
    if IsHeartbeat(bs, c) then BytesToString(bs[c + 1..c + 11])
    else match ParseFrame(bs, c)
      case Ok(f) => f.terminalId
      case Err(_) => ""
  }

  /** The header of a successful walk from i, given the decoded fields it
      starts with: those of the last data frame on the path, and the
      starting ones when the path holds none. */
  predicate LastHeaderHolds(bs: seq<byte>, i: nat, acc: Decoded)
  {
    Walk(bs, i, acc).Ok? ==> LastHeaderOf(bs, DataCursors(bs, i), acc, Walk(bs, i, acc).value)
  }

  /** r carries the header of the last data frame at the cursors cs, or that
      of acc when there is none. */
  predicate LastHeaderOf(bs: seq<byte>, cs: seq<nat>, acc: Decoded, r: Decoded)
  {
    if |cs| == 0 then HeaderOf(r) == HeaderOf(acc)
    else ParseFrame(bs, cs[|cs| - 1]).Ok?
         && HeaderOf(r) == FrameHeaderOf(ParseFrame(bs, cs[|cs| - 1]).value)
  }

  /** The last data frame wins: after a successful walk the header fields
      are those of the last data frame on the path, and untouched when the
      path holds none. */
  lemma {:induction false} WalkLastHeader(bs: seq<byte>, i: nat, acc: Decoded)
    ensures LastHeaderHolds(bs, i, acc)
    decreases Remaining(bs, i)
  {
    if i < |bs| {
      var j := Advance(bs, i);
      if IsHeartbeat(bs, i) || IsCommand(bs, i) {
        WalkLastHeader(bs, j, SkipStep(bs, i, acc));
        LastHeaderSkip(bs, i, acc);
      } else if ParseFrame(bs, i).Ok? {
        WalkLastHeader(bs, j, Merge(acc, ParseFrame(bs, i).value));
        LastHeaderData(bs, i, acc);
      } else {
        WalkDataStep(bs, i, acc);
      }
    }
  }

  lemma LastHeaderSkip(bs: seq<byte>, i: nat, acc: Decoded)
    requires i < |bs| && (IsHeartbeat(bs, i) || IsCommand(bs, i))
    requires LastHeaderHolds(bs, Advance(bs, i), SkipStep(bs, i, acc))
    ensures LastHeaderHolds(bs, i, acc)
  {
    WalkSkipStep(bs, i, acc);
    assert HeaderOf(SkipStep(bs, i, acc)) == HeaderOf(acc);
  }

  lemma LastHeaderData(bs: seq<byte>, i: nat, acc: Decoded)
    requires i < |bs| && !IsHeartbeat(bs, i) && !IsCommand(bs, i)
    requires ParseFrame(bs, i).Ok?
    requires LastHeaderHolds(bs, Advance(bs, i), Merge(acc, ParseFrame(bs, i).value))
    ensures LastHeaderHolds(bs, i, acc)
  {
    var j := Advance(bs, i);
    var m := Merge(acc, ParseFrame(bs, i).value);
    WalkDataStep(bs, i, acc);
    DataCursorsStep(bs, i);
    if Walk(bs, j, m).Ok? {
      LastHeaderCons(bs, i, DataCursors(bs, j), acc, Walk(bs, j, m).value);
    }
  }

  /** A data frame in front of the cursors: its header is the last one
      when no later data frame follows. */
  lemma LastHeaderCons(bs: seq<byte>, i: nat, rest: seq<nat>, acc: Decoded, r: Decoded)
    requires ParseFrame(bs, i).Ok?
    requires LastHeaderOf(bs, rest, Merge(acc, ParseFrame(bs, i).value), r)
    ensures LastHeaderOf(bs, [i] + rest, acc, r)
  {
    LastOfCons(i, rest);
  }

  /** The terminal id of a successful walk from i: that of the last
      heartbeat or data frame on the path, whichever came later, and the
      starting one when the path holds neither. */
  predicate LastIdHolds(bs: seq<byte>, i: nat, acc: Decoded)
  {
    Walk(bs, i, acc).Ok? ==> LastIdOf(bs, IdCursors(bs, i), acc, Walk(bs, i, acc).value)
  }

  /** r carries the terminal id written at the last of the cursors ws, or
      that of acc when there is none. */
  predicate LastIdOf(bs: seq<byte>, ws: seq<nat>, acc: Decoded, r: Decoded)
  {
    if |ws| == 0 then r.terminalId == acc.terminalId
    else r.terminalId == IdAt(bs, ws[|ws| - 1])
  }

  /** The last writer of the terminal id wins, whether a heartbeat or a
      data frame. */
  lemma {:induction false} WalkLastId(bs: seq<byte>, i: nat, acc: Decoded)
    ensures LastIdHolds(bs, i, acc)
    decreases Remaining(bs, i)
  {
    if i < |bs| {
      var j := Advance(bs, i);
      if IsHeartbeat(bs, i) || IsCommand(bs, i) {
        WalkLastId(bs, j, SkipStep(bs, i, acc));
        if IsHeartbeat(bs, i) {
          LastIdHeartbeat(bs, i, acc);
        } else {
          FrameKinds(bs, i);
          LastIdCommand(bs, i, acc);
        }
      } else if ParseFrame(bs, i).Ok? {
        WalkLastId(bs, j, Merge(acc, ParseFrame(bs, i).value));
        LastIdData(bs, i, acc);
      } else {
        WalkDataStep(bs, i, acc);
      }
    }
  }

  lemma LastIdHeartbeat(bs: seq<byte>, i: nat, acc: Decoded)
    requires i < |bs| && IsHeartbeat(bs, i)
    requires LastIdHolds(bs, Advance(bs, i), SkipStep(bs, i, acc))
    ensures LastIdHolds(bs, i, acc)
  {
    var j, a := Advance(bs, i), SkipStep(bs, i, acc);
    var rest := IdCursors(bs, j);
    WalkSkipStep(bs, i, acc);
    assert IdCursors(bs, i) == [i] + rest;
    LastOfCons(i, rest);
    assert a.terminalId == IdAt(bs, i);
  }

  lemma LastIdCommand(bs: seq<byte>, i: nat, acc: Decoded)
    requires i < |bs| && IsCommand(bs, i)
    requires LastIdHolds(bs, Advance(bs, i), acc)
    ensures LastIdHolds(bs, i, acc)
  {
    FrameKinds(bs, i);
    WalkSkipStep(bs, i, acc);
    assert IdCursors(bs, i) == IdCursors(bs, Advance(bs, i));
  }

  lemma LastIdData(bs: seq<byte>, i: nat, acc: Decoded)
    requires i < |bs| && !IsHeartbeat(bs, i) && !IsCommand(bs, i)
    requires ParseFrame(bs, i).Ok?
    requires LastIdHolds(bs, Advance(bs, i), Merge(acc, ParseFrame(bs, i).value))
    ensures LastIdHolds(bs, i, acc)
  {
    var rest := IdCursors(bs, Advance(bs, i));
    WalkDataStep(bs, i, acc);
    assert IdCursors(bs, i) == [i] + rest;
    assert IdAt(bs, i) == ParseFrame(bs, i).value.terminalId;
    LastOfCons(i, rest);
  }

  /** For a decoded buffer: the header fields come from the last data
      frame ("" and 0 when there is none), and the terminal id from the
      last heartbeat or data frame. */
  lemma DecodeLastWriterWins(bs: seq<byte>)
    requires Decode(bs).Ok?
    ensures var r := Decode(bs).value;
      var cs := DataCursors(bs, 0);
      if |cs| == 0 then HeaderOf(r) == ("", "", 0, 0, "", "")
      else ParseFrame(bs, cs[|cs| - 1]).Ok?
           && HeaderOf(r) == FrameHeaderOf(ParseFrame(bs, cs[|cs| - 1]).value)
    ensures var r := Decode(bs).value;
      var ws := IdCursors(bs, 0);
      if |ws| == 0 then r.terminalId == ""
      else r.terminalId == IdAt(bs, ws[|ws| - 1])
  {
    var r := Decode(bs).value;
    DecodeIsWalk(bs);
    WalkLastHeader(bs, 0, Empty);
    WalkLastId(bs, 0, Empty);
    assert LastHeaderOf(bs, DataCursors(bs, 0), Empty, r);
    assert LastIdOf(bs, IdCursors(bs, 0), Empty, r);
    assert HeaderOf(Empty) == ("", "", 0, 0, "", "");
  }

  /** After a successful walk from i the health-check mark is set exactly
      when it was set at the start or a heartbeat lies on the path. */
  predicate MarkHolds(bs: seq<byte>, i: nat, acc: Decoded)
  {
    Walk(bs, i, acc).Ok? ==>
      (Walk(bs, i, acc).value.containsHealthcheck <==>
         acc.containsHealthcheck || exists c <- IdCursors(bs, i) :: IsHeartbeat(bs, c))
  }

  /** The mark records whether a heartbeat was met: every heartbeat sets
      it, and nothing else does. */
  lemma {:induction false} WalkMark(bs: seq<byte>, i: nat, acc: Decoded)
    ensures MarkHolds(bs, i, acc)
    decreases Remaining(bs, i)
  {
    if i < |bs| {
      var j := Advance(bs, i);
      if IsHeartbeat(bs, i) {
        WalkMark(bs, j, SkipStep(bs, i, acc));
        MarkHeartbeat(bs, i, acc);
      } else if IsCommand(bs, i) {
        WalkMark(bs, j, acc);
        MarkCommand(bs, i, acc);
      } else if ParseFrame(bs, i).Ok? {
        WalkMark(bs, j, Merge(acc, ParseFrame(bs, i).value));
        MarkData(bs, i, acc);
      } else {
        WalkDataStep(bs, i, acc);
      }
    }
  }

  lemma MarkHeartbeat(bs: seq<byte>, i: nat, acc: Decoded)
    requires i < |bs| && IsHeartbeat(bs, i)
    requires MarkHolds(bs, Advance(bs, i), SkipStep(bs, i, acc))
    ensures MarkHolds(bs, i, acc)
  {
    WalkSkipStep(bs, i, acc);
    assert SkipStep(bs, i, acc).containsHealthcheck;
    assert IdCursors(bs, i) == [i] + IdCursors(bs, Advance(bs, i));
    assert i in IdCursors(bs, i);
  }

  lemma MarkCommand(bs: seq<byte>, i: nat, acc: Decoded)
    requires i < |bs| && IsCommand(bs, i)
    requires MarkHolds(bs, Advance(bs, i), acc)
    ensures MarkHolds(bs, i, acc)
  {
    FrameKinds(bs, i);
    WalkSkipStep(bs, i, acc);
    assert SkipStep(bs, i, acc) == acc;
    assert IdCursors(bs, i) == IdCursors(bs, Advance(bs, i));
  }

  lemma MarkData(bs: seq<byte>, i: nat, acc: Decoded)
    requires i < |bs| && !IsHeartbeat(bs, i) && !IsCommand(bs, i)
    requires ParseFrame(bs, i).Ok?
    requires MarkHolds(bs, Advance(bs, i), Merge(acc, ParseFrame(bs, i).value))
    ensures MarkHolds(bs, i, acc)
  {
    var rest := IdCursors(bs, Advance(bs, i));
    WalkDataStep(bs, i, acc);
    assert IdCursors(bs, i) == [i] + rest;
    assert (exists c <- [i] + rest :: IsHeartbeat(bs, c)) <==> (exists c <- rest :: IsHeartbeat(bs, c));
  }

  /** A decoded buffer carries the health-check mark exactly when its walk
      met a heartbeat. */
  lemma DecodeMark(bs: seq<byte>)
    requires Decode(bs).Ok?
    ensures Decode(bs).value.containsHealthcheck <==>
              exists c <- IdCursors(bs, 0) :: IsHeartbeat(bs, c)
  {
    DecodeIsWalk(bs);
    WalkMark(bs, 0, Empty);
  }

  lemma DecodeIsWalk(bs: seq<byte>)
    requires Decode(bs).Ok?
    ensures Walk(bs, 0, Empty) == Decode(bs)
  {
  }

  lemma LastOfCons(c: nat, rest: seq<nat>)
    ensures |rest| > 0 ==> ([c] + rest)[|[c] + rest| - 1] == rest[|rest| - 1]
    ensures |rest| == 0 ==> ([c] + rest)[|[c] + rest| - 1] == c
  {
  }

  /** Decode of a buffer that passes the size and header checks succeeds
      exactly when every data frame the cursor reaches parses; there is
      then one record per such frame. */
  lemma DecodeOkIff(bs: seq<byte>)
    requires |bs| >= MinPacketSize && (bs[0] == 0x24 || bs[0] == 0x28)
    ensures Decode(bs).Ok? <==> forall c <- DataCursors(bs, 0) :: FrameParses(bs, c)
    ensures Decode(bs).Ok? ==>
      && AllParse(bs, DataCursors(bs, 0))
      && Decode(bs).value.data == FrameRecords(bs, DataCursors(bs, 0))
  {
    WalkOkIff(bs, 0, Empty);
    if Decode(bs).Ok? {
      WalkRecords(bs, 0, Empty);
    }
    forall c | 0 <= c {
      ParseFrameOkIff(bs, c);
    }
  }

  /** A lone 16-byte heartbeat decodes to the health-check mark, its ten
      raw id bytes as terminal id, and no records. */
  lemma HeartbeatOnly(bs: seq<byte>)
    requires |bs| == 16 && bs[0] == 0x28
    requires bs[13] == 0x4A && bs[14] == 0x54 && bs[15] == 0x29
    ensures Decode(bs) == Ok(Empty.(containsHealthcheck := true,
                                    terminalId := BytesToString(bs[1..11])))
  {
    var hb := Empty.(containsHealthcheck := true, terminalId := BytesToString(bs[1..11]));
    assert IsHeartbeat(bs, 0);
    assert Advance(bs, 0) == 16;
    assert Walk(bs, 16, hb) == Ok(hb);
    assert Walk(bs, 0, Empty) == Walk(bs, 16, hb);
  }

  /** The heartbeat frame 28 37 30 30 30 33 31 33 33 33 34 2C 40 4A 54 29. */
  lemma HeartbeatExample()
    ensures Decode([0x28, 0x37, 0x30, 0x30, 0x30, 0x33, 0x31, 0x33,
                    0x33, 0x33, 0x34, 0x2C, 0x40, 0x4A, 0x54, 0x29])
            == Ok(Empty.(containsHealthcheck := true, terminalId := "7000313334"))
  {
    var bs: seq<byte> := [0x28, 0x37, 0x30, 0x30, 0x30, 0x33, 0x31, 0x33,
                          0x33, 0x33, 0x34, 0x2C, 0x40, 0x4A, 0x54, 0x29];
    HeartbeatOnly(bs);
    assert BytesToString(bs[1..11]) == "7000313334";
  }
}

=== FILE: reader.dfy ===
/** The fixed-offset field readers the frame decoder calls. They belong to
    the b2n package, which is not part of this model; their behaviour is
    taken as given here: an unsigned read of k bytes at offset i is the
    big-endian value of bs[i..i+k], a string read of n bytes is the hex
    text of bs[i..i+n] (Text.HexText), and a read fails only when its range
    leaves the buffer. The decoder checks that condition itself, so only
    the values are modelled here. */
module Reader {
  import opened Common
  import opened Text

  /** Unsigned value of a byte run, most significant byte first. */
  function BigEndian(bs: seq<byte>): nat
  {
    if |bs| == 0 then 0 else BigEndian(bs[..|bs| - 1]) * 256 + bs[|bs| - 1]
  }

  lemma {:induction false} BigEndianBound(bs: seq<byte>)
    ensures BigEndian(bs) < Pow(256, |bs|)
  {
    if |bs| > 0 {
      var p := bs[..|bs| - 1];
      BigEndianBound(p);
      MulMonotone(BigEndian(p) + 1, Pow(256, |p|), 256);
    }
  }

  /** b2n.ParseBs2Uint16 at offset i of a buffer that holds it. */
  function Uint16At(bs: seq<byte>, i: nat): (v: uint16)
    requires i + 2 <= |bs|
    ensures v == bs[i] as int * 256 + bs[i + 1]
  {
    BigEndianBound(bs[i..i + 2]);
    assert Pow(256, 2) == 0x1_0000;
    assert bs[i..i + 2][..1] == [bs[i]];
    BigEndian(bs[i..i + 2])
  }

  /** b2n.ParseBs2Uint32 at offset i of a buffer that holds it. */
  function Uint32At(bs: seq<byte>, i: nat): (v: uint32)
    requires i + 4 <= |bs|
    ensures v == ((bs[i] as int * 256 + bs[i + 1]) * 256 + bs[i + 2]) * 256 + bs[i + 3]
  {
    var w := bs[i..i + 4];
    BigEndianBound(w);
    assert Pow(256, 4) == 0x1_0000_0000;
    var w3, w2 := w[..3], w[..2];
    assert w3[..2] == w2;
    assert w2[0] == bs[i] && w2[1] == bs[i + 1] && w3[2] == bs[i + 2];
    assert w2[..1] == [bs[i]];
    assert BigEndian(w2) == bs[i] as int * 256 + bs[i + 1];
    assert BigEndian(w3) == BigEndian(w2) * 256 + bs[i + 2];
    BigEndian(w)
  }
}

=== FILE: reception.dfy ===
/** The packet splitter: a text dump of one or more frames is cut at every
    occurrence of the text "24", each piece is trimmed and stripped of
    spaces, empty pieces are dropped, every other piece must be hex text,
    and each survivor gets its "24" back in front. */
module Reception {
  import opened Common
  import opened Text

  const Separator: string := "24"

  /** TrimSpace, then every ' ' removed. */
  function Clean(segment: string): (c: string)
    ensures ' ' !in c
  {
    RemoveChar(TrimSpace(segment), ' ')
  }

  /** A piece passes when it cleans to nothing or to hex text. */
  predicate Acceptable(segment: string)
  {
    Clean(segment) == "" || IsHexString(Clean(segment))
  }

  /** Every piece passes. */
  predicate AllAcceptable(segs: seq<string>)
  {
    forall k :: 0 <= k < |segs| ==> Acceptable(segs[k])
  }

  /** The shape of every element of the result. */
  predicate WellFormed(e: string)
  {
    && StartsWith(e, Separator)
    && ' ' !in e
    && |e| > |Separator|
    && IsHexString(e[|Separator|..])
  }

  predicate AllWellFormed(es: seq<string>)
  {
    forall k :: 0 <= k < |es| ==> WellFormed(es[k])
  }

  /** What one piece contributes: nothing when it cleans to nothing, and
      otherwise "24" + the cleaned piece. */
  function Piece(segment: string): (r: seq<string>)
    ensures |r| <= 1
    ensures Acceptable(segment) ==> AllWellFormed(r)
  {
    var c := Clean(segment);
    if c == "" then []
    else
      var e := Separator + c;
      assert e[..|Separator|] == Separator && e[|Separator|..] == c;
      assert ' ' !in e by {
        assert forall x <- e :: x in Separator || x in c;
      }
      [e]
  }

  /** The pieces' contributions, first piece first: at most one element per
      piece, and all of them well formed when every piece passes. */
  function Kept(segs: seq<string>): (r: seq<string>)
    ensures |r| <= |segs|
    ensures AllAcceptable(segs) ==> AllWellFormed(r)
  {
    if |segs| == 0 then []
    else
      var r := Piece(segs[0]) + Kept(segs[1..]);
      assert AllAcceptable(segs) ==> AllWellFormed(r) by {
        AcceptableTail(segs);
        if AllAcceptable(segs) {
          WellFormedConcat(Piece(segs[0]), Kept(segs[1..]));
        }
      }
      r
  }

  lemma AcceptableTail(segs: seq<string>)
    requires |segs| > 0
    ensures AllAcceptable(segs) <==> Acceptable(segs[0]) && AllAcceptable(segs[1..])
  {
    var t := segs[1..];
    assert forall k :: 0 <= k < |t| ==> t[k] == segs[k + 1];
    if Acceptable(segs[0]) && AllAcceptable(t) {
      forall k | 0 <= k < |segs| ensures Acceptable(segs[k]) {
        if k > 0 {
          assert segs[k] == t[k - 1];
        }
      }
    }
  }

  lemma AcceptableSnoc(init: seq<string>, last: string)
    ensures AllAcceptable(init + [last]) <==> AllAcceptable(init) && Acceptable(last)
  {
    var segs := init + [last];
    assert segs[|init|] == last;
    assert forall k :: 0 <= k < |init| ==> segs[k] == init[k];
  }

  lemma WellFormedConcat(a: seq<string>, b: seq<string>)
    requires AllWellFormed(a) && AllWellFormed(b)
    ensures AllWellFormed(a + b)
  {
    var t := a + b;
    forall k | 0 <= k < |t| ensures WellFormed(t[k]) {
      if k < |a| {
        assert t[k] == a[k];
      } else {
        assert t[k] == b[k - |a|];
      }
    }
  }

  /** What the splitter returns for the raw text: an error as soon as one
      piece is neither empty after cleaning nor hex text, and otherwise the
      kept pieces. */
  function Reception(raw: string): (r: Result<seq<string>>)
    ensures r.Ok? <==> AllAcceptable(SplitOn(raw, Separator))
    ensures r.Err? ==> r.error == MalformedHex
    ensures r.Ok? ==> |r.value| <= CountOf(raw, Separator) + 1
    ensures r.Ok? ==> AllWellFormed(r.value)
  {
    var segs := SplitOn(raw, Separator);
    SplitCount(raw, Separator);
    if AllAcceptable(segs) then Ok(Kept(segs)) else Err(MalformedHex)
  }

  /** PacketReception: one pass over the pieces; the first piece that is not
      hex text ends the pass with an error and no list. */
  method PacketReception(raw: string) returns (r: Result<seq<string>>)
    ensures r == Reception(raw)
  {
    var packets := SplitOn(raw, Separator);
    var result: seq<string> := [];
    var k := 0;
    while k < |packets|
      invariant 0 <= k <= |packets|
      invariant AllAcceptable(packets[..k])
      invariant result == Kept(packets[..k])
    {
      var packet := Clean(packets[k]);
      assert packets[..k + 1] == packets[..k] + [packets[k]];
      KeptAppend(packets[..k], packets[k]);
      AcceptableSnoc(packets[..k], packets[k]);
      if packet != "" {
        var decoded := HexDecode(packet);
        if decoded.Err? {
          assert !Acceptable(packets[k]);
          assert !AllAcceptable(packets);
          return Err(MalformedHex);
        }
        result := result + [Separator + packet];
      }
      k := k + 1;
    }
    assert packets[..k] == packets;
    return Ok(result);
  }

  // ---------------------------------------------------------------------
  // Properties of the result
  // ---------------------------------------------------------------------

  /** Pieces appended on the right contribute on the right. */
  lemma {:induction false} KeptAppend(segs: seq<string>, s: string)
    ensures Kept(segs + [s]) == Kept(segs) + Piece(s)
    decreases |segs|
  {
    var t := segs + [s];
    if |segs| > 0 {
      assert t[0] == segs[0] && t[1..] == segs[1..] + [s];
      KeptAppend(segs[1..], s);
      assert Kept(t) == Piece(segs[0]) + (Kept(segs[1..]) + Piece(s));
    } else {
      assert t == [s] && t[1..] == [];
      assert Kept(t) == Piece(s) + Kept([]);
    }
  }

  /** A piece that cleans to nothing neither contributes nor fails. */
  lemma SkipEmptyFirst(segs: seq<string>, s: string)
    requires Clean(s) == ""
    ensures Kept([s] + segs) == Kept(segs)
    ensures AllAcceptable([s] + segs) <==> AllAcceptable(segs)
  {
    assert ([s] + segs)[1..] == segs;
    AcceptableTail([s] + segs);
  }

  /** A leading "24" yields no element: the text after it gives the same
      result. */
  lemma LeadingSeparator(rest: string)
    ensures Reception(Separator + rest) == Reception(rest)
  {
    var raw := Separator + rest;
    assert StartsWith(raw, Separator);
    assert raw[|Separator|..] == rest;
    assert SplitOn(raw, Separator) == [""] + SplitOn(rest, Separator);
    assert Clean("") == "";
    SkipEmptyFirst(SplitOn(rest, Separator), "");
  }

  lemma SplitExample()
    ensures SplitOn("24 7500 24 7501", Separator) == ["", " 7500 ", " 7501"]
  {
    var a, b := " 7500 ", " 7501";
    assert "24 7500 24 7501" == "" + Separator + (a + Separator + b);
    SplitAfterPiece("", Separator, a + Separator + b);
    SplitAfterPiece(a, Separator, b);
    SplitWithoutSeparator(b, Separator);
  }

  lemma CleanExamples()
    ensures Clean(" 7500 ") == "7500"
    ensures Clean(" 7501") == "7501"
  {
    assert TrimLeftSpace(" 7500 ") == "7500 ";
    assert TrimRightSpace("7500 ") == "7500";
    assert TrimLeftSpace(" 7501") == "7501";
    assert TrimRightSpace("7501") == "7501";
    RemoveAbsentChar("7500", ' ');
    RemoveAbsentChar("7501", ' ');
  }

  lemma HexExamples()
    ensures IsHexString("7500") && IsHexString("7501")
  {
    var s, t := "7500", "7501";
    assert s[0] == '7' && s[1] == '5' && s[2] == '0' && s[3] == '0';
    assert t[0] == '7' && t[1] == '5' && t[2] == '0' && t[3] == '1';
    forall k | 0 <= k < 4 ensures DigitValue(s[k]) < 16 && DigitValue(t[k]) < 16 {
      assert k == 0 || k == 1 || k == 2 || k == 3;
    }
  }

  lemma KeptTwo(a: string, b: string)
    requires Clean(a) != "" && Clean(b) != ""
    ensures Kept([a, b]) == [Separator + Clean(a), Separator + Clean(b)]
  {
    assert [b][1..] == [];
    assert Kept([b]) == [Separator + Clean(b)];
    assert [a, b][1..] == [b];
    assert Kept([a, b]) == [Separator + Clean(a)] + Kept([b]);
  }

  lemma KeptExample()
    ensures Kept([" 7500 ", " 7501"]) == [Separator + "7500", Separator + "7501"]
  {
    CleanExamples();
    KeptTwo(" 7500 ", " 7501");
  }

  lemma AcceptableExample()
    ensures AllAcceptable([" 7500 ", " 7501"])
  {
    var segs := [" 7500 ", " 7501"];
    CleanExamples();
    HexExamples();
    assert Acceptable(segs[0]) && Acceptable(segs[1]);
  }

  lemma PrefixExamples()
    ensures [Separator + "7500", Separator + "7501"] == ["247500", "247501"]
  {
    assert Separator + "7500" == "247500";
    assert Separator + "7501" == "247501";
  }

  /** Two spaced frames behind a leading "24". */
  lemma ReceptionExample()
    ensures Reception("24 7500 24 7501") == Ok(["247500", "247501"])
  {
    var raw := "24 7500 24 7501";
    var segs := [" 7500 ", " 7501"];
    SplitExample();
    assert Clean("") == "";
    SkipEmptyFirst(segs, "");
    AcceptableExample();
    KeptExample();
    assert SplitOn(raw, Separator) == [""] + segs;
    PrefixExamples();
  }
}

=== FILE: text.dfy ===
/** The pieces of Go's `strconv`, `strings` and `encoding/hex` that the
    parser, the packet splitter and the display helpers rely on, written
    out over `string` (a sequence of runes). */
module Text {
  import opened Common

  // ---------------------------------------------------------------------
  // Digits and numerals (strconv)
  // ---------------------------------------------------------------------

  /** Value of a digit as strconv reads it in bases up to 36 (letters in
      either case); 36 for a character that is a digit in no base. */
  function DigitValue(c: char): nat
  {
    if '0' <= c <= '9' then c as int - '0' as int
    else if 'a' <= c <= 'z' then c as int - 'a' as int + 10
    else if 'A' <= c <= 'Z' then c as int - 'A' as int + 10
    else 36
  }

  predicate AllDigitsIn(s: string, base: nat)
  {
    forall k :: 0 <= k < |s| ==> DigitValue(s[k]) < base
  }

  /** The number a digit string denotes in the given base, most significant
      digit first. */
  function ValueOf(s: string, base: nat): nat
    requires AllDigitsIn(s, base)
  {
    if |s| == 0 then 0
    else ValueOf(s[..|s| - 1], base) * base + DigitValue(s[|s| - 1])
  }

  /** A numeral of n digits stays below base^n. */
  lemma {:induction false} ValueOfBound(s: string, base: nat)
    requires AllDigitsIn(s, base)
    ensures ValueOf(s, base) < Pow(base, |s|)
  {
    if |s| > 0 {
      var p := s[..|s| - 1];
      assert AllDigitsIn(p, base) by {
        forall k | 0 <= k < |p| ensures DigitValue(p[k]) < base {
          assert p[k] == s[k];
        }
      }
      ValueOfBound(p, base);
      var v := ValueOf(p, base);
      var d := DigitValue(s[|s| - 1]);
      var pw := Pow(base, |p|);
      assert Pow(base, |s|) == base * pw;
      MulMonotone(v + 1, pw, base);
      MulSucc(v, base);
    }
  }

  lemma MulSucc(a: nat, b: nat)
    ensures (a + 1) * b == a * b + b
  {
  }

  /** Digits appended on the right shift the value of a numeral. */
  lemma ValueOfAppend(s: string, c: char, base: nat)
    requires AllDigitsIn(s, base) && DigitValue(c) < base
    ensures AllDigitsIn(s + [c], base)
    ensures ValueOf(s + [c], base) == ValueOf(s, base) * base + DigitValue(c)
  {
    var t := s + [c];
    assert AllDigitsIn(t, base) by {
      forall k | 0 <= k < |t| ensures DigitValue(t[k]) < base {
        if k < |s| { assert t[k] == s[k]; }
      }
    }
    assert t[..|t| - 1] == s;
  }

  /** The longest prefix of s made of digits of the base: the part that
      strconv's left-to-right scan reads before it meets a non-digit. */
  function DigitPrefix(s: string, base: nat): (p: string)
    ensures |p| <= |s| && p == s[..|p|]
    ensures AllDigitsIn(p, base)
    ensures |p| < |s| ==> DigitValue(s[|p|]) >= base
  {
    if |s| == 0 || DigitValue(s[0]) >= base then []
    else [s[0]] + DigitPrefix(s[1..], base)
  }

  /** strconv.ParseUint(s, base, bits): digits only, no sign, no prefix.
      The scan goes left to right and stops at the first problem: once the
      digits read so far reach 2^bits it is a range error, whatever
      follows; a non-digit met before that, or empty text, is a syntax
      error. */
  function ParseUint(s: string, base: nat, bits: nat): (r: Result<nat>)
    ensures r.Ok? <==> |s| > 0 && AllDigitsIn(s, base) && ValueOf(s, base) < Pow(2, bits)
    ensures r.Ok? ==> r.value == ValueOf(s, base)
    ensures r.Err? ==> r.error == NotANumber || r.error == NumberOutOfRange
    ensures r.Err? ==>
      (r.error == NumberOutOfRange <==> ValueOf(DigitPrefix(s, base), base) >= Pow(2, bits))
  {
    var p := DigitPrefix(s, base);
    DigitPrefixOfDigits(s, base);
    if ValueOf(p, base) >= Pow(2, bits) then Err(NumberOutOfRange)
    else if |s| == 0 || |p| < |s| then Err(NotANumber)
    else Ok(ValueOf(s, base))
  }

  /** The scan reads all of s exactly when s is all digits. */
  lemma DigitPrefixOfDigits(s: string, base: nat)
    ensures AllDigitsIn(s, base) <==> DigitPrefix(s, base) == s
  {
  }

  /** The digits of a signed numeral: the text without one leading sign. */
  function Unsigned(s: string): (u: string)
    ensures |s| > 0 && (s[0] == '+' || s[0] == '-') ==> s == [s[0]] + u
    ensures |s| == 0 || (s[0] != '+' && s[0] != '-') ==> u == s
  {
    if |s| > 0 && (s[0] == '+' || s[0] == '-') then s[1..] else s
  }

  /** The one overflow Go's ParseInt lets through. A range error of the
      unsigned read leaves the magnitude at its maximum 2^bits - 1; at width
      1 that is 1, the negative bound itself, so a negative numeral whose
      leading digits reach 2 reads as -1 without an error. */
  predicate WidthOneClamp(s: string, base: nat, bits: nat)
  {
    bits == 1 && |s| > 0 && s[0] == '-' && ValueOf(DigitPrefix(Unsigned(s), base), base) >= 2
  }

  /** strconv.ParseInt(s, base, bits): an optional sign, then the digits
      through ParseUint; the value must fit a two's-complement integer of
      the given width, so the negative side reaches one further than the
      positive side. A syntax error of the unsigned read stays one; after a
      range error the magnitude is clamped to 2^bits - 1 and goes through
      the signed cutoff like any other. */
  function ParseInt(s: string, base: nat, bits: nat): (r: Result<int>)
    requires bits >= 1
    ensures r.Ok? <==>
      || WidthOneClamp(s, base, bits)
      || (&& |Unsigned(s)| > 0 && AllDigitsIn(Unsigned(s), base)
          && (if s[0] == '-' then ValueOf(Unsigned(s), base) <= Pow(2, bits - 1)
              else ValueOf(Unsigned(s), base) < Pow(2, bits - 1)))
    ensures r.Ok? ==> -(Pow(2, bits - 1) as int) <= r.value < Pow(2, bits - 1)
    ensures WidthOneClamp(s, base, bits) ==> r == Ok(-1)
    ensures r.Ok? && !WidthOneClamp(s, base, bits) ==>
      && |s| > 0 && AllDigitsIn(Unsigned(s), base)
      && r.value == if s[0] == '-' then -(ValueOf(Unsigned(s), base) as int) else ValueOf(Unsigned(s), base)
    ensures r.Err? ==> r.error == NotANumber || r.error == NumberOutOfRange
    ensures r.Err? ==>
      (r.error == NumberOutOfRange <==>
        && |s| > 0
        && (|| ValueOf(DigitPrefix(Unsigned(s), base), base) >= Pow(2, bits)
            || (&& AllDigitsIn(Unsigned(s), base)
                && (if s[0] == '-' then ValueOf(Unsigned(s), base) > Pow(2, bits - 1)
                    else ValueOf(Unsigned(s), base) >= Pow(2, bits - 1)))))
  {
    if |s| == 0 then Err(NotANumber)
    else
      var body := Unsigned(s);
      DigitPrefixOfDigits(body, base);
      var u := ParseUint(body, base, bits);
      if u.Err? && u.error != NumberOutOfRange then Err(u.error)
      else SignedCutoff(s[0] == '-', Magnitude(u, bits), bits)
  }

  /** The magnitude ParseInt goes on with: the unsigned value, or the
      maximum 2^bits - 1 that ParseUint returns with a range error. */
  function Magnitude(u: Result<nat>, bits: nat): (un: nat)
    requires bits >= 1
    ensures u.Ok? ==> un == u.value
    ensures u.Err? ==> un + 1 == Pow(2, bits) && un >= Pow(2, bits - 1)
    ensures u.Err? && bits >= 2 ==> un > Pow(2, bits - 1)
  {
    PowPositive(2, bits - 1);
    assert Pow(2, bits) == 2 * Pow(2, bits - 1);
    if u.Ok? then u.value else Pow(2, bits) - 1
  }

  /** The signed cutoff: a non-negative value must stay below 2^(bits-1),
      a negative one may reach it. */
  function SignedCutoff(neg: bool, un: nat, bits: nat): (r: Result<int>)
    requires bits >= 1
    ensures r.Ok? <==> if neg then un <= Pow(2, bits - 1) else un < Pow(2, bits - 1)
    ensures r.Ok? ==> r.value == if neg then -(un as int) else un
    ensures r.Err? ==> r.error == NumberOutOfRange
  {
    var cutoff := Pow(2, bits - 1);
    if !neg && un >= cutoff then Err(NumberOutOfRange)
    else if neg && un > cutoff then Err(NumberOutOfRange)
    else
      var v: int := if neg then -(un as int) else un;
      Ok(v)
  }

  /** At width 1 the range is -1..0: "-1" fits, "1" is out of range, and
      "-2" overflows the unsigned read yet comes back as -1. */
  lemma ParseIntWidthOne()
    ensures ParseInt("-1", 10, 1) == Ok(-1)
    ensures ParseInt("1", 10, 1) == Err(NumberOutOfRange)
    ensures ParseInt("-2", 10, 1) == Ok(-1)
  {
    WidthOneDigit("-1", 1);
    WidthOneDigit("1", 1);
    WidthOneDigit("-2", 2);
  }

  /** The one-digit numeral d, with or without a minus sign, at width 1. */
  lemma WidthOneDigit(s: string, d: nat)
    requires 1 <= d <= 9 && (s == [(48 + d) as char] || s == ['-', (48 + d) as char])
    ensures s[0] == '-' ==> ParseInt(s, 10, 1) == Ok(-1)
    ensures s[0] != '-' ==> ParseInt(s, 10, 1) == Err(NumberOutOfRange)
  {
    var u := Unsigned(s);
    assert u == [(48 + d) as char];
    assert Pow(2, 1) == 2 && Pow(2, 0) == 1;
    assert ValueOf(u, 10) == ValueOf([], 10) * 10 + d;
    DigitPrefixOfDigits(u, 10);
  }

  /** The lower-case digit strconv writes for d. */
  function DigitChar(d: nat): char
    requires d < 36
  {
    if d < 10 then (48 + d) as char else (97 + d - 10) as char
  }

  lemma DigitCharValue(d: nat)
    requires d < 36
    ensures DigitValue(DigitChar(d)) == d
    ensures DigitChar(d) == '0' <==> d == 0
  {
  }

  /** strconv.FormatUint(n, base): the shortest numeral of n. */
  function FormatNat(n: nat, base: nat): string
    requires 2 <= base <= 36
  {
    if n < base then [DigitChar(n)]
    else
      DivShrinks(n, base);
      FormatNat(n / base, base) + [DigitChar(n % base)]
  }

  /** Reading a formatted numeral back gives the number. */
  lemma {:induction false} FormatNatRoundTrip(n: nat, base: nat)
    requires 2 <= base <= 36
    ensures AllDigitsIn(FormatNat(n, base), base)
    ensures ValueOf(FormatNat(n, base), base) == n
  {
    if n < base {
      DigitCharValue(n);
      assert FormatNat(n, base)[..0] == [];
    } else {
      var q, m := n / base, n % base;
      DivShrinks(n, base);
      FormatNatRoundTrip(q, base);
      DigitCharValue(m);
      ValueOfAppend(FormatNat(q, base), DigitChar(m), base);
      DivMod(n, base);
    }
  }

  lemma DivShrinks(n: nat, b: nat)
    requires b >= 2 && n >= b
    ensures 1 <= n / b < n
  {
  }

  lemma DivMod(n: nat, b: nat)
    requires b > 0
    ensures n == (n / b) * b + n % b
  {
  }

  /** A formatted numeral starts with '0' only when it is "0". */
  lemma {:induction false} FormatNatNoLeadingZero(n: nat, base: nat)
    requires 2 <= base <= 36
    ensures FormatNat(n, base)[0] == '0' <==> n == 0
  {
    DigitCharValue(n % base);
    if n >= base {
      DivShrinks(n, base);
      FormatNatNoLeadingZero(n / base, base);
    }
  }

  /** strconv.FormatInt(v, base) and strconv.Itoa: a minus sign for
      negative values, then the shortest numeral of the magnitude. */
  function FormatInt(v: int, base: nat): string
    requires 2 <= base <= 36
  {
    if v < 0 then "-" + FormatNat(-v, base) else FormatNat(v, base)
  }

  /** strconv reads a formatted numeral back, for every width the value
      fits in. */
  lemma ParseFormatRoundTrip(n: nat, base: nat, bits: nat)
    requires 2 <= base <= 36 && bits >= 1 && n < Pow(2, bits - 1)
    ensures ParseInt(FormatNat(n, base), base, bits) == Ok(n)
    ensures n < Pow(2, bits) ==> ParseUint(FormatNat(n, base), base, bits) == Ok(n)
    ensures ParseInt("-" + FormatNat(n, base), base, bits).Ok?
    ensures ParseInt("-" + FormatNat(n, base), base, bits).value == -(n as int)
  {
    var t := FormatNat(n, base);
    FormatNatRoundTrip(n, base);
    FormatNatShape(n, base);
    assert ("-" + t)[1..] == t;
  }

  /** A formatted numeral is non-empty and starts with a digit, never a
      sign. */
  lemma FormatNatShape(n: nat, base: nat)
    requires 2 <= base <= 36
    ensures |FormatNat(n, base)| > 0
    ensures FormatNat(n, base)[0] != '+' && FormatNat(n, base)[0] != '-'
  {
    FormatNatRoundTrip(n, base);
    var t := FormatNat(n, base);
    if |t| == 0 {
      assert false;
    }
    assert DigitValue(t[0]) < base;
  }

  // ---------------------------------------------------------------------
  // Hexadecimal text (encoding/hex)
  // ---------------------------------------------------------------------

  /** Two lower-case hex digits per byte, high nibble first. */
  function HexText(bs: seq<byte>): (r: string)
    ensures |r| == 2 * |bs|
  {
    if |bs| == 0 then []
    else
      var b := bs[|bs| - 1];
      HexText(bs[..|bs| - 1]) + [DigitChar(b / 16), DigitChar(b % 16)]
  }

  /** Character 2k of the hex text is the high nibble of byte k, character
      2k+1 its low nibble. */
  lemma {:induction false} HexTextAt(bs: seq<byte>, k: nat)
    requires k < |bs|
    ensures HexText(bs)[2 * k] == DigitChar(bs[k] / 16)
    ensures HexText(bs)[2 * k + 1] == DigitChar(bs[k] % 16)
  {
    if k < |bs| - 1 {
      var p := bs[..|bs| - 1];
      HexTextAt(p, k);
      assert p[k] == bs[k];
    }
  }

  /** What hex.DecodeString accepts: an even number of hex digits. */
  predicate IsHexString(s: string)
  {
    |s| % 2 == 0 && AllDigitsIn(s, 16)
  }

  function HexBytes(s: string): seq<byte>
    requires IsHexString(s)
  {
    if |s| == 0 then []
    else
      var p := s[..|s| - 2];
      assert AllDigitsIn(p, 16) by {
        forall k | 0 <= k < |p| ensures DigitValue(p[k]) < 16 {
          assert p[k] == s[k];
        }
      }
      HexBytes(p) + [DigitValue(s[|s| - 2]) * 16 + DigitValue(s[|s| - 1])]
  }

  /** The last byte decoded comes from the last two digits. */
  lemma HexBytesLast(t: string)
    requires IsHexString(t) && |t| >= 2
    ensures IsHexString(t[..|t| - 2])
    ensures HexBytes(t) == HexBytes(t[..|t| - 2]) + [DigitValue(t[|t| - 2]) * 16 + DigitValue(t[|t| - 1])]
  {
    var p := t[..|t| - 2];
    assert forall k :: 0 <= k < |p| ==> p[k] == t[k];
  }

  /** hex.DecodeString: fails on odd length or a non-hex character. */
  function HexDecode(s: string): (r: Result<seq<byte>>)
    ensures r.Ok? <==> IsHexString(s)
  {
    if IsHexString(s) then Ok(HexBytes(s)) else Err(MalformedHex)
  }

  /** Hex text consists of hex digits only, two per byte. */
  lemma HexTextIsHex(bs: seq<byte>)
    ensures IsHexString(HexText(bs))
  {
    var t := HexText(bs);
    forall k | 0 <= k < |t| ensures DigitValue(t[k]) < 16 {
      HexTextAt(bs, k / 2);
      DigitCharValue(bs[k / 2] / 16);
      DigitCharValue(bs[k / 2] % 16);
    }
  }

  /** Decoding the hex text of bytes gives the bytes back. */
  lemma HexRoundTrip(bs: seq<byte>)
    ensures IsHexString(HexText(bs))
    ensures HexDecode(HexText(bs)) == Ok(bs)
  {
    HexBytesOfText(bs);
  }

  lemma {:induction false} HexBytesOfText(bs: seq<byte>)
    ensures IsHexString(HexText(bs)) && HexBytes(HexText(bs)) == bs
  {
    HexTextIsHex(bs);
    if |bs| > 0 {
      var p, b := bs[..|bs| - 1], bs[|bs| - 1];
      HexBytesOfText(p);
      HexBytesAppend(HexText(p), b);
      assert HexText(bs) == HexText(p) + [DigitChar(b / 16), DigitChar(b % 16)];
      InitLast(bs);
    }
  }

  /** One step of the round trip: the two digits of a byte appended to hex
      text decode to that byte appended to the decoding. */
  lemma HexBytesAppend(q: string, b: byte)
    requires IsHexString(q)
    ensures IsHexString(q + [DigitChar(b / 16), DigitChar(b % 16)])
    ensures HexBytes(q + [DigitChar(b / 16), DigitChar(b % 16)]) == HexBytes(q) + [b]
  {
    var hi, lo := DigitChar(b / 16), DigitChar(b % 16);
    var t := q + [hi, lo];
    NibbleDigits(b);
    DigitCharValue(b / 16);
    DigitCharValue(b % 16);
    assert AllDigitsIn(t, 16) by {
      forall k | 0 <= k < |t| ensures DigitValue(t[k]) < 16 {
        if k < |q| { assert t[k] == q[k]; }
      }
    }
    HexBytesLast(t);
    assert t[..|t| - 2] == q;
  }

  /** The two hex digits of a byte give the byte back. */
  lemma NibbleDigits(b: byte)
    ensures DigitValue(DigitChar(b / 16)) * 16 + DigitValue(DigitChar(b % 16)) == b
  {
    DigitCharValue(b / 16);
    DigitCharValue(b % 16);
  }

  /** The last two characters of the hex text are the digits of the last
      byte, and what precedes them is the hex text of the other bytes. */
  lemma HexTextLast(bs: seq<byte>)
    requires |bs| > 0
    ensures var t, b := HexText(bs), bs[|bs| - 1];
      && t[..|t| - 2] == HexText(bs[..|bs| - 1])
      && t[|t| - 2] == DigitChar(b / 16) && t[|t| - 1] == DigitChar(b % 16)
  {
    var t, p, b := HexText(bs), bs[..|bs| - 1], bs[|bs| - 1];
    assert t == HexText(p) + [DigitChar(b / 16), DigitChar(b % 16)];
  }

  /** A run of bytes copied into a string, one character per byte. */
  function BytesToString(bs: seq<byte>): string
  {
    seq(|bs|, k requires 0 <= k < |bs| => bs[k] as char)
  }

  // ---------------------------------------------------------------------
  // Splitting, joining, trimming (strings)
  // ---------------------------------------------------------------------

  predicate StartsWith(s: string, p: string)
  {
    |p| <= |s| && s[..|p|] == p
  }

  /** strings.Split(s, sep): the pieces between the leftmost
      non-overlapping occurrences of sep. */
  function SplitOn(s: string, sep: string): (parts: seq<string>)
    requires |sep| > 0
    ensures |parts| >= 1
    decreases |s|
  {
    if |s| < |sep| then [s]
    else if StartsWith(s, sep) then [""] + SplitOn(s[|sep|..], sep)
    else
      var rest := SplitOn(s[1..], sep);
      [[s[0]] + rest[0]] + rest[1..]
  }

  /** A piece that does not contain the separator's first character holds
      no separator: the split ends the piece at the separator after it. */
  lemma {:induction false} SplitAfterPiece(a: string, sep: string, rest: string)
    requires |sep| > 0 && sep[0] !in a
    ensures SplitOn(a + sep + rest, sep) == [a] + SplitOn(rest, sep)
    decreases |a|
  {
    var s := a + sep + rest;
    if |a| == 0 {
      assert s == sep + rest;
      assert s[|sep|..] == rest;
    } else {
      assert s[0] == a[0] != sep[0];
      assert s[1..] == a[1..] + sep + rest;
      SplitAfterPiece(a[1..], sep, rest);
      assert [a[0]] + a[1..] == a;
    }
  }

  /** Text without the separator's first character is one piece. */
  lemma {:induction false} SplitWithoutSeparator(a: string, sep: string)
    requires |sep| > 0 && sep[0] !in a
    ensures SplitOn(a, sep) == [a]
    decreases |a|
  {
    if |a| >= |sep| {
      assert a[0] != sep[0];
      SplitWithoutSeparator(a[1..], sep);
      assert [a[0]] + a[1..] == a;
    }
  }

  /** strings.Join(parts, sep). */
  function Join(parts: seq<string>, sep: string): string
  {
    if |parts| == 0 then ""
    else if |parts| == 1 then parts[0]
    else parts[0] + sep + Join(parts[1..], sep)
  }

  /** strings.Count(s, sep) for a non-empty sep: leftmost non-overlapping
      occurrences. */
  function CountOf(s: string, sep: string): nat
    requires |sep| > 0
    decreases |s|
  {
    if |s| < |sep| then 0
    else if StartsWith(s, sep) then 1 + CountOf(s[|sep|..], sep)
    else CountOf(s[1..], sep)
  }

  lemma JoinCons(c: char, parts: seq<string>, sep: string)
    requires |parts| >= 1
    ensures Join([[c] + parts[0]] + parts[1..], sep) == [c] + Join(parts, sep)
  {
    var q := [[c] + parts[0]] + parts[1..];
    if |parts| > 1 {
      assert q[1..] == parts[1..];
    }
  }

  /** Joining the pieces with the separator rebuilds the text. */
  lemma {:induction false} SplitJoin(s: string, sep: string)
    requires |sep| > 0
    ensures Join(SplitOn(s, sep), sep) == s
    decreases |s|
  {
    if |s| < |sep| {
    } else if StartsWith(s, sep) {
      var rest := SplitOn(s[|sep|..], sep);
      SplitJoin(s[|sep|..], sep);
      assert ([""] + rest)[1..] == rest;
      assert s == sep + s[|sep|..];
    } else {
      var rest := SplitOn(s[1..], sep);
      SplitJoin(s[1..], sep);
      JoinCons(s[0], rest, sep);
      assert s == [s[0]] + s[1..];
    }
  }

  /** Split yields one more piece than there are separators. */
  lemma {:induction false} SplitCount(s: string, sep: string)
    requires |sep| > 0
    ensures |SplitOn(s, sep)| == CountOf(s, sep) + 1
    decreases |s|
  {
    if |s| < |sep| {
    } else if StartsWith(s, sep) {
      SplitCount(s[|sep|..], sep);
    } else {
      SplitCount(s[1..], sep);
    }
  }

  /** unicode.IsSpace: the white-space runes strings.TrimSpace removes. */
  predicate IsSpace(c: char)
  {
    var u := c as int;
    (0x09 <= u <= 0x0D) || u == 0x20 || u == 0x85 || u == 0xA0 || u == 0x1680
    || (0x2000 <= u <= 0x200A) || u == 0x2028 || u == 0x2029 || u == 0x202F
    || u == 0x205F || u == 0x3000
  }

  function TrimLeftSpace(s: string): string
  {
    if |s| > 0 && IsSpace(s[0]) then TrimLeftSpace(s[1..]) else s
  }

  function TrimRightSpace(s: string): string
  {
    if |s| > 0 && IsSpace(s[|s| - 1]) then TrimRightSpace(s[..|s| - 1]) else s
  }

  /** strings.TrimSpace. */
  function TrimSpace(s: string): string
  {
    TrimRightSpace(TrimLeftSpace(s))
  }

  /** TrimLeft of the white space keeps the longest suffix that does not
      start with a space. */
  lemma {:induction false} TrimLeftSpaceShape(s: string)
    ensures var r := TrimLeftSpace(s);
      && |r| <= |s| && r == s[|s| - |r|..]
      && (forall k :: 0 <= k < |s| - |r| ==> IsSpace(s[k]))
      && (|r| > 0 ==> !IsSpace(r[0]))
  {
    if |s| > 0 && IsSpace(s[0]) {
      TrimLeftSpaceShape(s[1..]);
    }
  }

  /** TrimRight of the white space keeps the longest prefix that does not
      end with a space. */
  lemma {:induction false} TrimRightSpaceShape(s: string)
    ensures var r := TrimRightSpace(s);
      && |r| <= |s| && r == s[..|r|]
      && (forall k :: |r| <= k < |s| ==> IsSpace(s[k]))
      && (|r| > 0 ==> !IsSpace(r[|r| - 1]))
  {
    if |s| > 0 && IsSpace(s[|s| - 1]) {
      TrimRightSpaceShape(s[..|s| - 1]);
    }
  }

  /** TrimSpace keeps the text between the leading and the trailing white
      space, so it neither starts nor ends with a space. */
  lemma TrimSpaceShape(s: string)
    ensures |TrimSpace(s)| <= |TrimLeftSpace(s)| <= |s|
    ensures var r := TrimSpace(s);
      var a := |s| - |TrimLeftSpace(s)|;
      && a + |r| <= |s| && r == s[a..a + |r|]
      && (|r| > 0 ==> !IsSpace(r[0]) && !IsSpace(r[|r| - 1]))
      && (forall k :: 0 <= k < a ==> IsSpace(s[k]))
      && (forall k :: a + |r| <= k < |s| ==> IsSpace(s[k]))
  {
    var l := TrimLeftSpace(s);
    var r := TrimRightSpace(l);
    var a := |s| - |l|;
    TrimLeftSpaceShape(s);
    TrimRightSpaceShape(l);
    assert forall k :: a + |r| <= k < |s| ==> s[k] == l[k - a];
  }

  /** strings.ReplaceAll(s, [c], ""): every occurrence of c removed. */
  function RemoveChar(s: string, c: char): (r: string)
    ensures c !in r
    ensures |r| <= |s|
  {
    if |s| == 0 then []
    else (if s[0] == c then [] else [s[0]]) + RemoveChar(s[1..], c)
  }

  /** Removal works piece by piece. */
  lemma {:induction false} RemoveCharConcat(a: string, b: string, c: char)
    ensures RemoveChar(a + b, c) == RemoveChar(a, c) + RemoveChar(b, c)
    decreases |a|
  {
    if |a| > 0 {
      assert (a + b)[1..] == a[1..] + b;
      RemoveCharConcat(a[1..], b, c);
    } else {
      assert a + b == b;
    }
  }

  /** Removing a character that does not occur changes nothing. */
  lemma {:induction false} RemoveAbsentChar(s: string, c: char)
    requires c !in s
    ensures RemoveChar(s, c) == s
    decreases |s|
  {
    if |s| > 0 {
      assert s[0] != c;
      RemoveAbsentChar(s[1..], c);
      assert [s[0]] + s[1..] == s;
    }
  }

  /** strings.TrimPrefix(s, p): one leading p removed, if present. */
  function TrimPrefix(s: string, p: string): string
  {
    if StartsWith(s, p) then s[|p|..] else s
  }
}

=== FILE: tohuman.dfy ===
/** The display helpers that turn decoded fields into readable values:
    label lookups, bit tests, base conversions, string reversal and the
    sixteen-flag device-status table. */
module ToHuman {
  import opened Common
  import opened Text

  // ---------------------------------------------------------------------
  // Labels
  // ---------------------------------------------------------------------

  /** protocolVersion: "19" names the JT701D, anything else the JT701. */
  function ProtocolVersion(value: string): (r: string)
    ensures r == "JT701D" <==> value == "19"
    ensures r == "JT701D" || r == "JT701"
  {
    if value == "19" then "JT701D" else "JT701"
  }

  /** Only the text "19" names the JT701D; "98" does not. */
  lemma ProtocolVersionOf98()
    ensures ProtocolVersion("98") == "JT701"
  {
  }

  const RegularJT701: string := "Regular rechargeable JT701"
  const UnknownDataType: string := "Unknown data type"

  const DataTypeLabels: seq<string> :=
    ["Real-time position data", "Alarm data", "Blind area position data",
     "Sub-new position data (newly added by JT701D)"]

  /** The low four bits of a 64-bit two's-complement value (Go's v & 0x0F)
      are its Euclidean remainder by 16, for negative values too. */
  function LowNibbleOf(v: int): int
  {
    v % 16
  }

  /** Bits 4..7 of a 64-bit two's-complement value (Go's (v >> 4) & 0x0F):
      the arithmetic shift is floor division by 16, which is Dafny's
      Euclidean division by a positive divisor. */
  function SecondNibbleOf(v: int): int
  {
    (v / 16) % 16
  }

  /** deviceType on an already parsed value. */
  function DeviceTypeOf(v: int): (r: string)
    ensures r == RegularJT701 <==> v % 16 == 1
    ensures r == RegularJT701 || r == UnknownDataType
  {
    match LowNibbleOf(v)
    case 1 => RegularJT701
    case _ => UnknownDataType
  }

  /** deviceType: the text read as a 32-bit signed hex number. */
  function DeviceType(value: string): (r: string)
    requires ParseInt(value, 16, 32).Ok?
    ensures r == RegularJT701 <==> ParseInt(value, 16, 32).value % 16 == 1
  {
    DeviceTypeOf(ParseInt(value, 16, 32).value)
  }

  /** dataType on an already parsed value. */
  function DataTypeOf(v: int): (r: string)
    ensures forall k :: 0 <= k < 4 ==> (r == DataTypeLabels[k] <==> (v / 16) % 16 == k + 1)
    ensures r == UnknownDataType <==> !(1 <= (v / 16) % 16 <= 4)
  {
    match SecondNibbleOf(v)
    case 1 => "Real-time position data"
    case 2 => "Alarm data"
    case 3 => "Blind area position data"
    case 4 => "Sub-new position data (newly added by JT701D)"
    case _ => UnknownDataType
  }

  /** dataType: the text read as a 32-bit signed hex number. */
  function DataType(value: string): (r: string)
    requires ParseInt(value, 16, 32).Ok?
    ensures r == UnknownDataType <==> !(1 <= (ParseInt(value, 16, 32).value / 16) % 16 <= 4)
  {
    DataTypeOf(ParseInt(value, 16, 32).value)
  }

  /** deviceType reads only the low nibble, dataType only the one above. */
  lemma TypeLabelsReadOneNibble(v: int, w: int)
    ensures v % 16 == w % 16 ==> DeviceTypeOf(v) == DeviceTypeOf(w)
    ensures v / 16 % 16 == w / 16 % 16 ==> DataTypeOf(v) == DataTypeOf(w)
    ensures DataTypeOf(v + 1) == DataTypeOf(v) || v % 16 == 15
  {
    if v % 16 != 15 {
      assert (v + 1) / 16 == v / 16;
    }
  }

  /** The text "1" is the regular device type and an unknown data type. */
  lemma TypeLabelsOfOne()
    ensures ParseInt("1", 16, 32) == Ok(1)
    ensures DeviceType("1") == RegularJT701
    ensures DataType("1") == UnknownDataType
  {
    assert ParseInt("1", 16, 32) == Ok(1) by {
      assert AllDigitsIn("1", 16);
      assert ValueOf("1", 16) == ValueOf("", 16) * 16 + 1;
      assert Pow(2, 31) > 1 by {
        PowPositive(2, 30);
      }
    }
  }

  // ---------------------------------------------------------------------
  // Bits
  // ---------------------------------------------------------------------

  /** Bit k of n, counting from the least significant bit. */
  function BitOf(n: nat, k: nat): bool
  {
    if k == 0 then n % 2 == 1 else BitOf(n / 2, k - 1)
  }

  /** The four direction-indicator texts. */
  datatype Direction = Direction(fixedValue: string, longitude: string,
                                 latitude: string, positioning: string)

  /** decodeDirectionIndicator on the Go byte (a bv8): bit 0 positioning,
      bit 1 latitude, bit 2 longitude, bit 3 the fixed value; bits 4..7 are
      not read. */
  function DecodeDirectionIndicator(value: bv8): (r: Direction)
    ensures r.positioning == if BitOf(value as int, 0) then "GPS positioning" else "GPS not positioning"
    ensures r.latitude == if BitOf(value as int, 1) then "north latitude" else "south latitude"
    ensures r.longitude == if BitOf(value as int, 2) then "east longitude" else "west longitude"
    ensures r.fixedValue == if BitOf(value as int, 3) then "fixed value.1" else "fixed value.0"
  {
    var bit0 := value & 0x01 == 0x01;
    var bit1 := value & 0x02 == 0x02;
    var bit2 := value & 0x04 == 0x04;
    var bit3 := value & 0x08 == 0x08;
    LowBits(value);
    Direction(if bit3 then "fixed value.1" else "fixed value.0",
              if bit2 then "east longitude" else "west longitude",
              if bit1 then "north latitude" else "south latitude",
              if bit0 then "GPS positioning" else "GPS not positioning")
  }

  /** The byte masks of bits 0..3 agree with the arithmetic bits. */
  lemma LowBits(x: bv8)
    ensures (x & 0x01 == 0x01) == BitOf(x as int, 0)
    ensures (x & 0x02 == 0x02) == BitOf(x as int, 1)
    ensures (x & 0x04 == 0x04) == BitOf(x as int, 2)
    ensures (x & 0x08 == 0x08) == BitOf(x as int, 3)
  {
    BitsBelow(x as int);
    assert (x & 0x01 == 0x01) == (x % 2 == 1);
    assert (x & 0x02 == 0x02) == (x / 2 % 2 == 1);
    assert (x & 0x04 == 0x04) == (x / 2 / 2 % 2 == 1);
    assert (x & 0x08 == 0x08) == (x / 2 / 2 / 2 % 2 == 1);
    BvHalf(x);
    BvHalf(x / 2);
    BvHalf(x / 2 / 2);
    BvHalf(x / 2 / 2 / 2);
  }

  /** Halving and the lowest bit commute with reading a byte as a number. */
  lemma BvHalf(y: bv8)
    ensures (y / 2) as int == (y as int) / 2
    ensures (y % 2 == 1) == ((y as int) % 2 == 1)
  {
  }

  /** Bits 0..3 by repeated halving. */
  lemma BitsBelow(n: nat)
    ensures BitOf(n, 0) == (n % 2 == 1)
    ensures BitOf(n, 1) == (n / 2 % 2 == 1)
    ensures BitOf(n, 2) == (n / 2 / 2 % 2 == 1)
    ensures BitOf(n, 3) == (n / 2 / 2 / 2 % 2 == 1)
  {
    assert BitOf(n, 3) == BitOf(n / 2, 2) == BitOf(n / 2 / 2, 1) == BitOf(n / 2 / 2 / 2, 0);
    assert BitOf(n, 2) == BitOf(n / 2, 1) == BitOf(n / 2 / 2, 0);
  }

  /** Only the low nibble of the indicator byte matters. */
  lemma DirectionReadsLowNibble(a: bv8, b: bv8)
    requires a & 0x0F == b & 0x0F
    ensures DecodeDirectionIndicator(a) == DecodeDirectionIndicator(b)
  {
    assert a & 0x01 == (a & 0x0F) & 0x01 && b & 0x01 == (b & 0x0F) & 0x01;
    assert a & 0x02 == (a & 0x0F) & 0x02 && b & 0x02 == (b & 0x0F) & 0x02;
    assert a & 0x04 == (a & 0x0F) & 0x04 && b & 0x04 == (b & 0x0F) & 0x04;
    assert a & 0x08 == (a & 0x0F) & 0x08 && b & 0x08 == (b & 0x0F) & 0x08;
  }

  // ---------------------------------------------------------------------
  // Latitude and longitude
  // ---------------------------------------------------------------------

  /** Go's integer division: the quotient truncated toward zero. */
  function Quot(a: int, b: int): int
    requires b > 0
  {
    if a >= 0 then a / b else -((-a) / b)
  }

  /** Go's remainder: it takes the sign of the dividend. */
  function Rem(a: int, b: int): int
    requires b > 0
  {
    a - Quot(a, b) * b
  }

  /** parseLatLng before its rounding step: ddmm.mmmm packed as an integer
      (degrees above 10^6, minutes with four decimals below), converted to
      decimal degrees. */
  function ParseLatLng(latOrLng: int): (r: real)
    ensures latOrLng >= 0 ==>
      r == (latOrLng / 1000000) as real + (latOrLng % 1000000) as real / 600000.0
  {
    var degrees := Quot(latOrLng, 1000000);
    var minutes := Quot(Rem(latOrLng, 1000000), 10000);
    var decimalMinutes := Rem(latOrLng, 10000) as real / 10000.0;
    assert latOrLng >= 0 ==> minutes * 10000 + Rem(latOrLng, 10000) == latOrLng % 1000000 by {
      if latOrLng >= 0 {
        LatLngSplit(latOrLng);
      }
    }
    degrees as real + (minutes as real + decimalMinutes) / 60.0
  }

  /** The integer decomposition behind parseLatLng, for a non-negative
      packed value: degrees, whole minutes below 100, and four decimals. */
  lemma LatLngSplit(x: nat)
    ensures Quot(x, 1000000) * 1000000 + Quot(Rem(x, 1000000), 10000) * 10000 + Rem(x, 10000) == x
    ensures 0 <= Quot(Rem(x, 1000000), 10000) < 100
    ensures 0 <= Rem(x, 10000) < 10000
    ensures Quot(Rem(x, 1000000), 10000) * 10000 + Rem(x, 10000) == x % 1000000
  {
    var m := x % 1000000;
    assert Rem(x, 1000000) == m;
    assert x == (x / 1000000) * 1000000 + m;
    assert m == (m / 10000) * 10000 + m % 10000;
    assert x % 10000 == m % 10000 by {
      assert x == (x / 1000000 * 100) * 10000 + m;
    }
  }

  /** Truncating division makes the conversion odd: a negated input gives
      the negated degrees. */
  lemma LatLngOdd(x: int)
    ensures ParseLatLng(-x) == -ParseLatLng(x)
  {
    QuotRemOdd(x, 1000000);
    QuotRemOdd(Rem(x, 1000000), 10000);
    QuotRemOdd(x, 10000);
    var d, m, f := Quot(x, 1000000), Quot(Rem(x, 1000000), 10000), Rem(x, 10000) as real / 10000.0;
    assert ParseLatLng(x) == d as real + (m as real + f) / 60.0;
    assert ParseLatLng(-x) == (-d) as real + ((-m) as real + -f) / 60.0;
  }

  /** Go's quotient and remainder are both odd in the dividend. */
  lemma QuotRemOdd(a: int, b: int)
    requires b > 0
    ensures Quot(-a, b) == -Quot(a, b) && Rem(-a, b) == -Rem(a, b)
  {
  }

  /** The packed 22348310 is 22 degrees 34.8310 minutes, within 10^-6 of
      22.580517 degrees. */
  lemma LatLngExample()
    ensures -0.000001 <= ParseLatLng(22348310) - 22.580517 <= 0.000001
  {
    assert ParseLatLng(22348310) == 22.0 + 348310.0 / 600000.0;
  }

  // ---------------------------------------------------------------------
  // Number texts
  // ---------------------------------------------------------------------

  /** direction: twice the text read as a 32-bit signed hex number. */
  function DirectionDegrees(value: string): (r: int)
    requires ParseInt(value, 16, 32).Ok?
    ensures r % 2 == 0
    ensures -0x1_0000_0000 <= r < 0x1_0000_0000
    ensures |value| > 0 && AllDigitsIn(Unsigned(value), 16)
    ensures r == 2 * (if value[0] == '-' then -(ValueOf(Unsigned(value), 16) as int)
                      else ValueOf(Unsigned(value), 16))
  {
    var v := ParseInt(value, 16, 32).value;
    PowOf2At31();
    assert -0x8000_0000 <= v < 0x8000_0000;
    DoubleIsEven(v);
    v * 2
  }

  /** direction reads hex: the hex numeral of n gives 2n degrees. */
  lemma DirectionOfHexNumeral(n: nat)
    requires n < 0x8000_0000
    ensures ParseInt(FormatNat(n, 16), 16, 32).Ok?
    ensures DirectionDegrees(FormatNat(n, 16)) == 2 * n
  {
    PowOf2At31();
    ParseFormatRoundTrip(n, 16, 32);
  }

  lemma PowOf2At31()
    ensures Pow(2, 31) == 0x8000_0000
  {
    assert Pow(2, 8) == 256;
    PowAdd(2, 8, 8);
    PowAdd(2, 16, 8);
    PowAdd(2, 24, 7);
    assert Pow(2, 7) == 128;
  }

  /** The text "98" is hex 0x98 = 152, so 304 degrees. */
  lemma DirectionExample()
    ensures ParseInt("98", 16, 32).Ok?
    ensures DirectionDegrees("98") == 304
  {
    assert FormatNat(152, 16) == "98" by {
      assert FormatNat(9, 16) == "9";
      assert DigitChar(8) == '8';
    }
    DirectionOfHexNumeral(152);
  }

  /** hexToDecimal: the empty text is refused up front, everything else is
      read as a 64-bit signed hex number. */
  function HexToDecimal(hexStr: string): (r: Result<int>)
    ensures hexStr == "" ==> r == Err(EmptyString)
    ensures hexStr != "" ==> r == ParseInt(hexStr, 16, 64)
    ensures r.Ok? ==> -(Pow(2, 63) as int) <= r.value < Pow(2, 63)
  {
    if hexStr == "" then Err(EmptyString)
    else
      var v :- ParseInt(hexStr, 16, 64);
      Ok(v)
  }

  /** hexToDecimal reads back every hex numeral in the signed 64-bit range. */
  lemma HexToDecimalRoundTrip(n: nat)
    requires n < Pow(2, 63)
    ensures HexToDecimal(FormatNat(n, 16)) == Ok(n)
    ensures HexToDecimal("-" + FormatNat(n, 16)).Ok?
    ensures HexToDecimal("-" + FormatNat(n, 16)).value == -(n as int)
  {
    ParseFormatRoundTrip(n, 16, 64);
  }

  /** strconv.ParseInt with base 16 takes no "0x" prefix: "0x24" is an
      error, while "24" is 36. */
  lemma HexToDecimalRefusesPrefix()
    ensures HexToDecimal("0x24").Err?
    ensures HexToDecimal("24") == Ok(36)
  {
    PrefixedHexRejected();
    HexTwentyFour();
  }

  lemma PrefixedHexRejected()
    ensures HexToDecimal("0x24").Err?
  {
    var t := "0x24";
    assert t[1] == 'x' && DigitValue('x') >= 16;
    assert !AllDigitsIn(t, 16);
    assert DigitPrefix(t, 16) == "0" by {
      assert DigitPrefix(t[1..], 16) == [];
    }
    assert ValueOf("0", 16) == 0 by {
      assert ValueOf("0", 16) == ValueOf("", 16) * 16 + 0;
    }
  }

  lemma HexTwentyFour()
    ensures HexToDecimal("24") == Ok(36)
  {
    assert FormatNat(36, 16) == "24" by {
      assert FormatNat(2, 16) == "2";
      assert DigitChar(4) == '4';
    }
    PowTwo64();
    HexToDecimalRoundTrip(36);
  }

  /** Number of leading hex digits among the first two characters. */
  function HexPrefixLength(s: string): (n: nat)
    ensures n <= 2 && n <= |s|
    ensures forall k :: 0 <= k < n ==> DigitValue(s[k]) < 16
    ensures n < 2 && n < |s| ==> DigitValue(s[n]) >= 16
  {
    if |s| == 0 || DigitValue(s[0]) >= 16 then 0
    else if |s| == 1 || DigitValue(s[1]) >= 16 then 1
    else 2
  }

  /** hexToByte: fmt.Sscanf with "%02x" into a byte. It reads at most two
      hex digits (either case), needs at least one, and ignores the rest
      of the text. */
  function HexToByte(s: string): (r: Result<byte>)
    requires |s| == 0 || !IsSpace(s[0])
    ensures r.Ok? <==> |s| > 0 && DigitValue(s[0]) < 16
    ensures r.Ok? && |s| >= 2 && DigitValue(s[1]) < 16 ==>
      r.value == DigitValue(s[0]) * 16 + DigitValue(s[1])
    ensures r.Ok? && (|s| == 1 || DigitValue(s[1]) >= 16) ==> r.value == DigitValue(s[0])
  {
    var n := HexPrefixLength(s);
    if n == 0 then Err(NotANumber)
    else
      var digits := s[..n];
      assert AllDigitsIn(digits, 16);
      assert ValueOf([s[0]], 16) == DigitValue(s[0]) by {
        ValueOfAppend([], s[0], 16);
        assert [] + [s[0]] == [s[0]];
      }
      assert n == 2 ==> ValueOf(digits, 16) == DigitValue(s[0]) * 16 + DigitValue(s[1]) by {
        if n == 2 {
          assert digits == [s[0]] + [s[1]];
          ValueOfAppend([s[0]], s[1], 16);
        }
      }
      assert n == 1 ==> digits == [s[0]];
      var b: byte := ValueOf(digits, 16);
      Ok(b)
  }

  /** hexToByte reads a byte's two-digit hex text back, and a single hex
      digit (a direction indicator) as its nibble. */
  lemma HexToByteRoundTrip(b: byte, d: nat)
    requires d < 16
    ensures HexToByte(HexText([b])) == Ok(b)
    ensures HexToByte([DigitChar(d)]) == Ok(d)
  {
    var t := HexText([b]);
    HexTextAt([b], 0);
    DigitCharValue(b / 16);
    DigitCharValue(b % 16);
    DigitCharValue(d);
  }

  /** The indicator text "F" is the byte 15. */
  lemma HexToByteOfF()
    ensures HexToByte("F") == Ok(15)
  {
    assert HexPrefixLength("F") == 1;
    assert "F"[..1] == "F";
  }

  /** The byte 15 has all four low bits set. */
  lemma AllLowBitsOf15()
    ensures DecodeDirectionIndicator(15)
            == Direction("fixed value.1", "east longitude", "north latitude", "GPS positioning")
  {
    assert BitOf(15, 3) && BitOf(15, 2) && BitOf(15, 1) && BitOf(15, 0);
  }

  /** hexToBinary: one leading "0x" dropped, the rest read as a 64-bit
      signed hex number and written in base 2. Whatever case or leading
      zeros the hex text has, the binary text is the shortest numeral. */
  function HexToBinary(hexStr: string): (r: Result<string>)
    ensures r.Ok? <==> ParseInt(TrimPrefix(hexStr, "0x"), 16, 64).Ok?
    ensures r.Ok? ==> var v := ParseInt(TrimPrefix(hexStr, "0x"), 16, 64).value;
      v >= 0 ==> AllDigitsIn(r.value, 2) && ValueOf(r.value, 2) == v
    ensures r.Ok? ==> var v := ParseInt(TrimPrefix(hexStr, "0x"), 16, 64).value;
      v >= 0 ==> |r.value| > 0 && (r.value[0] == '0' <==> v == 0)
    ensures r.Ok? ==> var v := ParseInt(TrimPrefix(hexStr, "0x"), 16, 64).value;
      v < 0 ==> (&& |r.value| > 1 && r.value[0] == '-' && r.value[1] != '0'
                 && AllDigitsIn(r.value[1..], 2) && ValueOf(r.value[1..], 2) == -v)
  {
    var trimmed := TrimPrefix(hexStr, "0x");
    var v :- ParseInt(trimmed, 16, 64);
    var t := FormatInt(v, 2);
    var n: nat := if v < 0 then -v else v;
    FormatNatRoundTrip(n, 2);
    FormatNatNoLeadingZero(n, 2);
    FormatNatShape(n, 2);
    assert v < 0 ==> t[1..] == FormatNat(n, 2);
    Ok(t)
  }

  /** The hex numeral of n, with or without "0x", gives the shortest binary
      numeral of n: no leading zero unless n is 0. */
  lemma HexToBinaryRoundTrip(n: nat)
    requires n < Pow(2, 63)
    ensures HexToBinary(FormatNat(n, 16)) == Ok(FormatNat(n, 2))
    ensures HexToBinary("0x" + FormatNat(n, 16)) == Ok(FormatNat(n, 2))
    ensures FormatNat(n, 2)[0] == '0' <==> n == 0
  {
    ParseFormatRoundTrip(n, 16, 64);
    FormatNatNoLeadingZero(n, 2);
    HexNumeralHasNoPrefix(n);
  }

  /** A hex numeral never starts with "0x", and one "0x" in front of it is
      exactly what the trim removes. */
  lemma HexNumeralHasNoPrefix(n: nat)
    ensures TrimPrefix(FormatNat(n, 16), "0x") == FormatNat(n, 16)
    ensures TrimPrefix("0x" + FormatNat(n, 16), "0x") == FormatNat(n, 16)
  {
    var t := FormatNat(n, 16);
    FormatNatShape(n, 16);
    FormatNatNoLeadingZero(n, 16);
    assert StartsWith("0x" + t, "0x");
    assert ("0x" + t)[2..] == t;
  }

  /** The text "F" gives "1111". */
  lemma HexToBinaryExample()
    ensures HexToBinary("F") == Ok("1111")
  {
    HexFIsFifteen();
    BinaryOfFifteen();
  }

  lemma HexFIsFifteen()
    ensures ParseInt("F", 16, 64) == Ok(15)
  {
    PowTwo64();
    assert ValueOf("F", 16) == ValueOf("", 16) * 16 + 15;
    DigitPrefixOfDigits("F", 16);
    assert ParseUint("F", 16, 64) == Ok(15);
  }

  lemma BinaryOfFifteen()
    ensures FormatNat(15, 2) == "1111"
  {
    assert FormatNat(1, 2) == "1";
    assert FormatNat(3, 2) == "11";
    assert FormatNat(7, 2) == "111";
  }

  // ---------------------------------------------------------------------
  // Reversal
  // ---------------------------------------------------------------------

  function Reverse(s: string): (r: string)
    ensures |r| == |s|
    ensures forall k :: 0 <= k < |s| ==> r[k] == s[|s| - 1 - k]
  {
    if |s| == 0 then [] else Reverse(s[1..]) + [s[0]]
  }

  lemma {:induction false} ReverseAt(s: string, k: nat)
    requires k < |s|
    ensures Reverse(s)[k] == s[|s| - 1 - k]
    decreases |s|
  {
    if k < |s| - 1 {
      ReverseAt(s[1..], k);
    }
  }

  /** Reversing twice gives the text back. */
  lemma ReverseInvolution(s: string)
    ensures Reverse(Reverse(s)) == s
  {
    var r := Reverse(Reverse(s));
    forall k | 0 <= k < |s| ensures r[k] == s[k] {
      ReverseAt(Reverse(s), k);
      ReverseAt(s, |s| - 1 - k);
    }
  }

  /** reverseString: swap the two ends and move inward. */
  method ReverseString(str: string) returns (reversed: string)
    ensures reversed == Reverse(str)
  {
    reversed := str;
    var n := |str|;
    var i, j := 0, n - 1;
    while i < j
      invariant 0 <= i <= n && j == n - 1 - i
      invariant |reversed| == n
      invariant forall k :: 0 <= k < i ==> reversed[k] == str[n - 1 - k] && reversed[n - 1 - k] == str[k]
      invariant forall k :: i <= k < n - i ==> reversed[k] == str[k]
    {
      var a, b := reversed[i], reversed[j];
      reversed := reversed[i := b][j := a];
      i, j := i + 1, j - 1;
    }
    forall k | 0 <= k < n ensures reversed[k] == Reverse(str)[k] {
      ReverseAt(str, k);
    }
  }

  // ---------------------------------------------------------------------
  // The device-status table
  // ---------------------------------------------------------------------

  /** Go's uint8 subtraction of two single-byte characters, wrapping. */
  function ByteDiff(c: char, d: char): nat
    requires c as int < 128 && d as int < 128
  {
    (c as int - d as int) % 256
  }

  /** The shape bitToInt indexes into without panicking. */
  predicate KeyShape(key: string)
  {
    var parts := SplitOn(TrimPrefix(key, "Byte"), ".");
    && |parts| >= 2 && |parts[0]| >= 1 && |parts[1]| >= 4
    && parts[0][0] as int < 128 && parts[1][3] as int < 128
  }

  /** bitToInt: ("Byte" b "." "BIT" k) gives (b - 1) * 8 + k, with the digits
      read by byte arithmetic; a negative index becomes 0. */
  function BitToInt(key: string): (r: nat)
    requires KeyShape(key)
    ensures var parts := SplitOn(TrimPrefix(key, "Byte"), ".");
      var b, k := parts[0][0], parts[1][3];
      '0' <= b <= '9' && '0' <= k <= '9' ==>
        r == if b == '0' && DigitValue(k) < 8 then 0 else (DigitValue(b) - 1) * 8 + DigitValue(k)
  {
    var parts := SplitOn(TrimPrefix(key, "Byte"), ".");
    var byteNum, bitNum := parts[0], parts[1];
    var index := (ByteDiff(byteNum[0], '0') - 1) * 8 + ByteDiff(bitNum[3], '0');
    if index < 0 then 0 else index
  }

  /** The key of bit k of status byte b. */
  function Key(b: nat, k: nat): string
    requires 1 <= b <= 2 && k < 8
  {
    "Byte" + [DigitChar(b)] + ".BIT" + [DigitChar(k)]
  }

  /** The sixteen keys name the sixteen bits: bit k of byte b is index
      (b - 1) * 8 + k. */
  lemma BitToIntKeys(b: nat, k: nat)
    requires 1 <= b <= 2 && k < 8
    ensures KeyShape(Key(b, k))
    ensures BitToInt(Key(b, k)) == (b - 1) * 8 + k
  {
    var key := Key(b, k);
    var tail := "BIT" + [DigitChar(k)];
    assert StartsWith(key, "Byte");
    assert TrimPrefix(key, "Byte") == [DigitChar(b)] + "." + tail;
    SplitAfterPiece([DigitChar(b)], ".", tail);
    SplitWithoutSeparator(tail, ".");
    assert SplitOn(TrimPrefix(key, "Byte"), ".") == [[DigitChar(b)], tail];
  }

  /** Distinct keys give distinct indexes. */
  lemma BitToIntInjective(b: nat, k: nat, c: nat, m: nat)
    requires 1 <= b <= 2 && k < 8 && 1 <= c <= 2 && m < 8
    ensures KeyShape(Key(b, k)) && KeyShape(Key(c, m))
    ensures BitToInt(Key(b, k)) == BitToInt(Key(c, m)) <==> b == c && k == m
  {
    BitToIntKeys(b, k);
    BitToIntKeys(c, m);
  }

  /** The descriptions, in the order of the bits they describe. */
  const Descriptions: seq<string> :=
    ["baseStationPositioning", "enterFenceAlarm", "exitFenceAlarm",
     "lockRopeCutAlarm", "vibrationAlarm", "platformACKCommandRequired",
     "lockRopeState", "motorState",
     "longTimeUnlockingAlarm", "wrongPasswordAlarm", "swipeIllegalRFIDCardAlarm",
     "lowBatteryAlarm", "backCoverOpenedAlarm", "backCoverStatus",
     "motorStuckAlarm", "reserved"]

  /** The sixteen descriptions are pairwise different, so the table's
      iteration order does not matter to the map it builds. */
  lemma DescriptionsDistinct(a: nat, b: nat)
    requires a < b < 16
    ensures Descriptions[a] != Descriptions[b]
  {
    assert |Descriptions[a]| != |Descriptions[b]| || Descriptions[a][0] != Descriptions[b][0];
  }

  /** Index t of the table: the key of bit t. */
  function TableKey(t: nat): string
    requires t < 16
  {
    Key(t / 8 + 1, t % 8)
  }

  /** Entry t of the table stands for bit t. */
  lemma TableKeyIndex(t: nat)
    requires t < 16
    ensures KeyShape(TableKey(t))
    ensures BitToInt(TableKey(t)) == t
  {
    BitToIntKeys(t / 8 + 1, t % 8);
    assert (t / 8 + 1 - 1) * 8 + t % 8 == t;
  }

  /** The map from description to flag, for the entries t.. of the table. */
  function StatusMap(flags: seq<bool>, t: nat): (m: map<string, bool>)
    requires |flags| == 16 && t <= 16
    ensures m.Keys == set u | t <= u < 16 :: Descriptions[u]
    decreases 16 - t
  {
    if t == 16 then map[]
    else StatusMap(flags, t + 1)[Descriptions[t] := flags[t]]
  }

  lemma {:induction false} StatusMapAt(flags: seq<bool>, t: nat, u: nat)
    requires |flags| == 16 && t <= u < 16
    ensures Descriptions[u] in StatusMap(flags, t)
    ensures StatusMap(flags, t)[Descriptions[u]] == flags[u]
    decreases 16 - t
  {
    if t < u {
      StatusMapAt(flags, t + 1, u);
      DescriptionsDistinct(t, u);
    }
  }

  /** The flag the loop stores for table entry t: the entry's index
      counted from the end of the reversed text, clamped at 0. */
  function EntryFlagAsWritten(reversed: string, t: nat): bool
    requires |reversed| > 0 && t < 16
  {
    TableKeyIndex(t);
    var index := |reversed| - BitToInt(TableKey(t)) - 1;
    reversed[if index < 0 then 0 else index] == '1'
  }

  /** parseDeviceStatus, as written. Go panics on the empty text (it
      indexes the reversed text at 0), hence the precondition. */
  function ParseDeviceStatusAsWritten(binaryStr: string): (m: map<string, bool>)
    requires |binaryStr| > 0
    ensures m.Keys == set u | 0 <= u < 16 :: Descriptions[u]
  {
    var reversed := Reverse(binaryStr);
    StatusMap(seq(16, t requires 0 <= t < 16 => EntryFlagAsWritten(reversed, t)), 0)
  }

  /** What the double reversal and the clamp amount to: flag t reads
      character t of the text from the left when it exists, and the last
      character otherwise. */
  lemma DeviceStatusAsWrittenReads(s: string, t: nat)
    requires |s| > 0 && t < 16
    ensures Descriptions[t] in ParseDeviceStatusAsWritten(s)
    ensures ParseDeviceStatusAsWritten(s)[Descriptions[t]]
            == if t < |s| then s[t] == '1' else s[|s| - 1] == '1'
  {
    var reversed := Reverse(s);
    var flags := seq(16, u requires 0 <= u < 16 => EntryFlagAsWritten(reversed, u));
    assert ParseDeviceStatusAsWritten(s) == StatusMap(flags, 0);
    StatusMapAt(flags, 0, t);
    assert flags[t] == EntryFlagAsWritten(reversed, t);
    EntryFlagReads(s, t);
  }

  lemma EntryFlagReads(s: string, t: nat)
    requires |s| > 0 && t < 16
    ensures EntryFlagAsWritten(Reverse(s), t) == if t < |s| then s[t] == '1' else s[|s| - 1] == '1'
  {
    var reversed := Reverse(s);
    TableKeyIndex(t);
    var index := |s| - t - 1;
    var j := if index < 0 then 0 else index;
    assert EntryFlagAsWritten(reversed, t) == (reversed[j] == '1');
    ReverseAt(s, j);
    assert |s| - 1 - j == if t < |s| then t else |s| - 1;
  }

  /** The binary text of the value 1 is "1", and as written every one of
      the sixteen flags comes out true; only the first should. */
  lemma DeviceStatusAsWrittenMisreadsOne()
    ensures forall t :: 0 <= t < 16 ==> ParseDeviceStatusAsWritten("1")[Descriptions[t]]
    ensures forall t :: 0 <= t < 16 ==> ParseDeviceStatus("1")[Descriptions[t]] == (t == 0)
  {
    forall t | 0 <= t < 16 ensures Descriptions[t] in ParseDeviceStatusAsWritten("1") && ParseDeviceStatusAsWritten("1")[Descriptions[t]] {
      DeviceStatusAsWrittenReads("1", t);
    }
    forall t | 0 <= t < 16 ensures Descriptions[t] in ParseDeviceStatus("1") && ParseDeviceStatus("1")[Descriptions[t]] == (t == 0) {
      DeviceStatusReads("1", t);
    }
  }

  /** The flag of bit t as the table describes it: the t-th character from
      the right of the most-significant-first text; absent bits are 0. */
  function FlagOfBit(binaryStr: string, t: nat): bool
  {
    t < |binaryStr| && binaryStr[|binaryStr| - 1 - t] == '1'
  }

  /** parseDeviceStatus as the table intends it. */
  function ParseDeviceStatus(binaryStr: string): (m: map<string, bool>)
    ensures m.Keys == set u | 0 <= u < 16 :: Descriptions[u]
  {
    StatusMap(seq(16, t requires 0 <= t < 16 => FlagOfBit(binaryStr, t)), 0)
  }

  lemma DeviceStatusReads(s: string, t: nat)
    requires t < 16
    ensures Descriptions[t] in ParseDeviceStatus(s)
    ensures ParseDeviceStatus(s)[Descriptions[t]] == FlagOfBit(s, t)
  {
    StatusMapAt(seq(16, u requires 0 <= u < 16 => FlagOfBit(s, u)), 0, t);
  }

  /** The digit k places from the right of the binary numeral of n is bit k
      of n; every bit above the numeral is 0. */
  lemma {:induction false} BinaryDigitIsBit(n: nat, k: nat)
    ensures var t := FormatNat(n, 2);
      (k < |t| ==> (t[|t| - 1 - k] == '1' <==> BitOf(n, k)))
      && (k >= |t| ==> !BitOf(n, k))
    decreases n
  {
    var t := FormatNat(n, 2);
    if n < 2 {
      if k > 0 {
        BitOfZero(k - 1);
      }
    } else {
      BinaryDigitIsBit(n / 2, if k == 0 then 0 else k - 1);
    }
  }

  lemma {:induction false} BitOfZero(k: nat)
    ensures !BitOf(0, k)
  {
    if k > 0 {
      BitOfZero(k - 1);
    }
  }

  /** The intended reading: on the binary numeral of a value, each flag is
      the value's bit of that index. */
  lemma DeviceStatusReadsBits(n: nat, t: nat)
    requires t < 16
    ensures ParseDeviceStatus(FormatNat(n, 2))[Descriptions[t]] == BitOf(n, t)
  {
    DeviceStatusReads(FormatNat(n, 2), t);
    BinaryFlag(n, t);
  }

  lemma BinaryFlag(n: nat, t: nat)
    ensures FlagOfBit(FormatNat(n, 2), t) == BitOf(n, t)
  {
    var s := FormatNat(n, 2);
    BinaryDigitIsBit(n, t);
    if t < |s| {
      assert FlagOfBit(s, t) == (s[|s| - 1 - t] == '1');
    } else {
      assert !FlagOfBit(s, t);
    }
  }

  // ---------------------------------------------------------------------
  // Signal quality
  // ---------------------------------------------------------------------

  /** GSMSignalQuality: 0 means unknown and is reported as 99. */
  function GSMSignalQuality(value: byte): (r: byte)
    ensures r != 0
    ensures value != 0 ==> r == value
  {
    if value == 0 then 99 else value
  }

  /** Applying the mapping twice changes nothing more. */
  lemma GSMSignalQualityIdempotent(value: byte)
    ensures GSMSignalQuality(GSMSignalQuality(value)) == GSMSignalQuality(value)
    ensures GSMSignalQuality(0) == 99
  {
  }
}
